=== FILE: README.md ===
# tsqlsh core, modelled in Dafny

tsqlsh is an interactive SQL shell for SQL Server. It gathers a
statement from console lines and checks it against the session's access
mode. It then sends it down one of two driver paths, shapes the rows that
come back into a padded table and prints that table in colour. A
command-line parser decides the connection settings and whether the
session may write.

This project restates that core as pure Dafny functions over immutable
data and proves what each part does. It follows the code as written, so
it also pins down several behaviours the authors probably did not
intend:

- **`Command.Build` doubles input.** Every line is appended to the
  statement twice, so `SELECT 1;` becomes `SELECT 1; SELECT 1;`.
- **Control words are case-sensitive.** `exit` and `clear` work only in
  lower case. `EXIT` is ordinary text.
- **The `;` test can throw.** It indexes the trimmed line at the untrimmed
  line's last position. Any non-blank line with surrounding white space
  therefore throws `IndexOutOfRangeException`.
- **An empty query is an error.** A `SELECT` that returns no rows over at
  least one column reports "Sequence contains no elements". The `Max` in
  `calculatePadding` throws on the empty row list.
- **A successful non-query statement crashes `Print`.** It leaves `Rows`
  null, and `Rows.Any()` then throws `ArgumentNullException`.
- **Short statements escape.** On the non-query path, a text shorter than
  three characters throws outside the `try`. When the driver accepts a
  bare `USE`, the `Substring` that follows fails inside the `try`, and the
  `Substring` message is reported. When the driver rejects it, the
  driver's message is reported.
- **The rule is short.** The horizontal rule is as wide as the column
  widths added up. Every printed row is `n - 1` characters wider, one for
  each separator.
- **Validation messages are lost.** `CmdLineArgs.Errors` returns a new
  list on every access. `Validate` therefore loses every message,
  `HasErrors` stays false and the connection settings are built whatever
  validation found.
- **A missing server or database throws.** Building the settings assigns
  `Server` and `Database` to the builder's `DataSource` and
  `InitialCatalog`, which reject null. Without a `server=` or a
  `database=` argument, and without help, the constructor throws
  `ArgumentNullException` instead of reporting a message.
- **Options are found by substring.** `server=my-host` asks for help, and
  `pwd=x-rw` opens a read-write session.

Several unit tests in `src/tsqlsh.unittests/CmdLineParserTests.cs` expect
behaviour this code does not have:

- Lines 107-118 leave out `server=` and expect `HasErrors` to be set
  with "missing server name" as the first error. Lines 122-133 leave out
  `database=` and expect no errors and `master` as the database. In both,
  the constructor throws `ArgumentNullException` before any assertion.
- Lines 137-148 and 152-163 expect `HasErrors` to be set, with the
  password or the user name message first. As written, `HasErrors` stays
  false and `Errors` is empty.
- Lines 166-190, and 92-104, read the properties `UseIntegratedSecurity`
  and `ConnectionBuilder`, which the class does not have.

The model follows the code. `CommandLine.MissingServerThrows`,
`CommandLine.MissingDatabaseThrows` and
`CommandLine.EmptyServerIsNotReported` state what the code actually does
for those inputs. `CommandLine.FullArgumentsExample` states the test's
expectations that do hold.

`Terminal.cs` reads `result.ErrorMessage` and `result.ColumnCount`, but the
result class declares `ErrorMsg` and `ColCount`. The model reads the
declared properties.

Modules, one file each:

| file | module | models |
|---|---|---|
| optional.dfy | `Optional` | `null` as `None`; escaping exceptions as `Failure` |
| clr_string.dfy | `ClrString` | the .NET string operations used: ordinal `Contains`, `ToUpper`, `Char.IsWhiteSpace`, `Trim`, `PadRight`, `Replace(key, "")`, `Join` |
| execution_results.dfy | `Results` | `ExecutionResults.cs` |
| sql_engine.dfy | `SqlEngine` | `SqlEngine.cs`: the guard, the dispatch, both execution paths, reading and formatting |
| command.dfy | `Command` | `Command.cs` |
| terminal.dfy | `Terminal` | `Terminal.cs`: `Print`, `PrintHeader`, `PrintRows`, `GetDataTypeForecolor` |
| command_line.dfy | `CommandLine` | `CmdLineArgs.cs` |

Modelling choices:

- **The database is a `Driver` value.** It holds two functions from
  statement text to an outcome. Lemmas show that the path `ExecuteCommand`
  does not take cannot affect its result.
- **The console is a sequence of lines.** `None` stands for the `null`
  that `ReadLine` returns at the end of input.
- **Printed output is a sequence of segments.** Each segment holds the
  text of one `Console.Write` and the foreground colour in force, along
  with any exception that escaped.
- **Exceptions are values.** A caught exception becomes the error message
  of the result. One that escapes becomes `Failure` with the exception's
  type name.

## Model

| member | source | states |
|---|---|---|
| Results.HasRowsMeansRowCount | ExecutionResults.cs:50-52 | `HasRows` is false for a null `Rows` and otherwise agrees with `RowCount > 0` |
| ClrString.ContainsIffOccurs | SqlEngine.cs:84-90 | the ordinal `Contains` used by the markers holds exactly when the needle occurs at some index |
| ClrString.TrimFacts | Command.cs:36 | `Trim` returns nothing exactly for a blank string, and the string itself exactly when it has no surrounding white space |
| ClrString.TrimIgnoresBlankSuffix | Command.cs:45 | for every string, appending white space does not change what `Trim` returns |
| ClrString.PadRight | SqlEngine.cs:214 | the string followed by fill characters up to the width, or unchanged when already longer |
| ClrString.RemoveAllLeadingKey | CmdLineArgs.cs:44-48 | removing a leading key from `key + v` gives `v` back when `v` holds no further key |
| SqlEngine.RequiresWriteIffMarker | SqlEngine.cs:82-91 | a statement counts as a write exactly when one of the six markers, trailing space included, occurs in its upper-cased text |
| SqlEngine.RenderRecords | SqlEngine.cs:175-186 | one row per record, in order, each cell its string or `<null>` |
| SqlEngine.ReadRawResults | SqlEngine.cs:152-194 | no rows without `HasRows`; otherwise the column names, then one row per record; a failing `Read` loses every row |
| SqlEngine.MaxLength | SqlEngine.cs:228-230 | the longest value of a column: at least every value's length, and equal to one of them |
| SqlEngine.ColumnPadding | SqlEngine.cs:222-234 | one entry per column index, two more than the longest value in that column |
| SqlEngine.PadRows | SqlEngine.cs:207-218 | every value right-padded with spaces to its column's width, row count and column count kept |
| SqlEngine.FormatQueryResult | SqlEngine.cs:196-235 | fails with the empty-sequence message exactly when there are no rows and at least one column; otherwise every column is two wider than its longest value, every value is padded to its column width, and the statement text is dropped |
| SqlEngine.Formatted | SqlEngine.cs:198-234 | for at least one row: each column two wider than its longest value, every value right-padded with spaces to exactly that width |
| SqlEngine.FormattedColumnsAligned | SqlEngine.cs:207-218 | after formatting, every value of a column has the same length |
| SqlEngine.ReformatWidensByTwo | SqlEngine.cs:222-234 | formatting is not idempotent: formatting again widens every column by two |
| SqlEngine.PaddingExample | SqlEngine.cs:196-235 | header `a`,`bb` over row `1`,`22` gives the widths 3 and 4 |
| SqlEngine.ExecuteReader | SqlEngine.cs:99-115 | success is the formatted rows of an opened cursor; a failure leaves the statement text and the message only: the driver's message, the failing `Read`'s message, or the empty-sequence message when no rows came back over some columns, and no other failure occurs |
| SqlEngine.ExecuteNonQuery | SqlEngine.cs:122-145 | a text shorter than three characters throws; otherwise the statement text plus the driver's message on failure; a successful `USE` reports the database named from its fifth character on, with every `;` removed; a bare `USE` the driver accepts reports the `Substring` message; any other accepted statement returns just its text, with no error, rows, padding or columns |
| SqlEngine.ExecuteCommand | SqlEngine.cs:62-92 | refused with the advisory exactly when the text is a write and the session is read-only; otherwise `SELECT ` picks the reader path and anything else the non-query path; only a short non-query text escapes, and what escapes is `ArgumentOutOfRangeException` |
| SqlEngine.RefusalIgnoresDriver | SqlEngine.cs:68-76 | a refused statement never reaches the database: the outcome is the same for every driver |
| SqlEngine.ReaderPathIgnoresNonQuery | SqlEngine.cs:78-80 | on the reader path the non-query operation cannot influence the result |
| SqlEngine.NonQueryPathIgnoresReader | SqlEngine.cs:78-80 | on the non-query path the reader operation cannot influence the result |
| SqlEngine.ReadWriteNeverRefuses | SqlEngine.cs:68 | a read-write session never refuses a statement |
| SqlEngine.DeleteRefusedExample | SqlEngine.cs:68-76 | `DELETE FROM t` in a read-only session gets the advisory and nothing else |
| SqlEngine.EmptyQueryReportsError | SqlEngine.cs:162-165 | a cursor without rows over at least one column is reported as "Sequence contains no elements" |
| Command.Decide | Command.cs:26-43 | after a line: control word returns, surrounding white space throws, and reading on happens exactly for a non-blank line without surrounding white space that does not end in `;` |
| Command.Scan | Command.cs:21-44 | the loop, from a given read on, stops at the first line that does not continue the statement: within the input, or at the `null` just past it |
| Command.Build | Command.cs:16-46 | the lines read are exactly those that continue plus the one that ends; the outcome is the control word, the exception, or the trimmed buffer of every line read twice; one primary prompt and one continuation prompt per continuing line |
| Command.Finish | Command.cs:26-45 | leaving the loop: a control word is returned as read, a line with surrounding white space throws `IndexOutOfRangeException`, anything else returns the trimmed buffer |
| Command.StopsAtFirstNonContinuing | Command.cs:36-43 | `Build` reads exactly up to the first line that does not continue the statement |
| Command.ControlWordDiscardsBuffer | Command.cs:28-30 | a control word is returned as is, whatever was typed before it |
| Command.SubmitsAt | Command.cs:36-39 | a line that ends the statement without being a control word or throwing returns the trimmed buffer up to and including it |
| Command.UpperCaseExitIsText | Command.cs:28-32 | `EXIT` is not a control word: it is echoed twice and submitted as `EXIT EXIT` |
| Command.SurroundingWhiteSpaceThrows | Command.cs:36 | a non-blank line with surrounding white space throws `IndexOutOfRangeException` |
| Command.BlankLineSubmits | Command.cs:36 | a blank line or the end of input submits the buffer |
| Command.SemicolonSubmits | Command.cs:36 | a line ending in `;` without surrounding white space submits the buffer, itself included |
| Command.SingleLineDoubled | Command.cs:24-32 | a single `;`-terminated line comes back as `s s` |
| Command.SelectOneExample | Command.cs:16-46 | `SELECT 1;` yields `SELECT 1; SELECT 1;` |
| Terminal.DataTypeColor | Terminal.cs:91-109 | dark red exactly for numbers, green for booleans that are not numbers, cyan for dates that are neither, dark yellow otherwise |
| Terminal.PaddedBooleanIsGreen | Terminal.cs:98-101 | `True` and `false` surrounded by white space or NUL characters are green unless the number parser accepts them |
| Terminal.NullTokenColor | Terminal.cs:91-109 | the `<null>` token is not a boolean, so it is dark yellow unless a culture parser accepts it |
| Terminal.WriteCells | Terminal.cs:37-50 | the first value with its lead, then a white `\|` before each further value, each value in its colour; indexing past the row throws after the writes already made |
| Terminal.CellsText | Terminal.cs:70-83 | the cells of a row show the row's first `n` values joined by `\|` |
| Terminal.Dashes | Terminal.cs:53 | the rule is `width` dashes, but at least one |
| Terminal.SumValuesOverRange | Terminal.cs:53 | for padding keyed by the column indices, `Padding.Values.Sum()` is the sum of the column widths |
| Terminal.Rule | Terminal.cs:52-53 | a white rule as wide as the padding adds up to; a null `Padding` or a negative width throws after the earlier writes |
| Terminal.PrintHeader | Terminal.cs:35-54 | a header row shorter than the column count throws; otherwise the header cells then the rule |
| Terminal.HeaderCells | Terminal.cs:37-50 | each column name is written in magenta, the first after a line break, each further one after a white `\|`; a short header row throws |
| Terminal.RowLine | Terminal.cs:70-84 | each value of a data row is written in the colour `GetDataTypeForecolor` gives it, each after the first behind a white `\|`, then the line break |
| Terminal.WriteRowsLines | Terminal.cs:68-85 | when every row has a value for each column, the data rows are written one row line after another, in order |
| Terminal.RowLineText | Terminal.cs:70-84 | a data row shows its first `n` values joined by `\|`, then a line break |
| Terminal.WriteRows | Terminal.cs:68-85 | the data rows throw exactly when some row has fewer values than columns |
| Terminal.PrintRows | Terminal.cs:64-89 | throws exactly when a data row is short, `Padding` is null or its total is negative |
| Terminal.Print | Terminal.cs:16-33 | a non-blank error is written in red with an empty line after it and nothing else; a null `Rows` throws; an empty `Rows` prints nothing |
| Terminal.PrintEscapes | Terminal.cs:16-89 | without an error, printing succeeds exactly when `Rows` is set and, if it has rows, every row covers the columns and the padding is set with a non-negative total |
| Terminal.WriteRowsText | Terminal.cs:68-85 | the data rows show as one `\|`-joined line per row |
| Terminal.PrintLayout | Terminal.cs:16-89 | a printable table shows as a line break, the header, the rule, one line per data row and the rule again |
| Terminal.FormattedResultPrints | Terminal.cs:16-89 | a result `FormatQueryResult` produced always prints without an exception |
| Terminal.RuleShorterThanRows | Terminal.cs:53 | for a formatted result the rule is as wide as the column widths together, `n - 1` characters narrower than every row |
| Terminal.NonQuerySuccessCrashesPrint | Terminal.cs:26 | a statement the non-query path ran successfully makes `Print` throw `ArgumentNullException` |
| CommandLine.FirstIndex | CmdLineArgs.cs:28-31 | the first argument containing the key: no earlier one does, and it does |
| CommandLine.FirstContaining | CmdLineArgs.cs:28-31 | `FirstOrDefault`: `null` exactly when no argument holds the key, otherwise the first that does |
| CommandLine.Extract | CmdLineArgs.cs:44-48 | the first argument holding the key, with every occurrence of the key removed; `null` when none holds it |
| CommandLine.HelpIsShortFlag | CmdLineArgs.cs:33-37 | help is shown exactly when there are no arguments or one contains `-h`; the `--help` test adds nothing |
| CommandLine.ValidationMessages | CmdLineArgs.cs:126-144 | the four checks: missing server, missing database, user without password, password without user |
| CommandLine.Validate | CmdLineArgs.cs:122-159 | an instance with `HasErrors` set comes back unchanged; otherwise, a null server or database throws `ArgumentNullException`, and otherwise the settings hold server, database and intent, "" for a null user or password, and integrated security exactly when no user name is given; nothing else changes |
| CommandLine.Init | CmdLineArgs.cs:26-55 | throws `ArgumentNullException` exactly for a null `args`, or, without help, when no argument holds `server=` or none holds `database=`; help exactly as above, leaving every other property at its default; otherwise the four options extracted, read-write exactly when an argument contains `-rw`, no errors, settings built from the options |
| CommandLine.ErrorsAreLost | CmdLineArgs.cs:117-150 | with help, or with both `server=` and `database=` present, `Init` returns and `HasErrors` is false whatever validation found; without help, the settings exist |
| CommandLine.HyphenatedServerShowsHelp | CmdLineArgs.cs:36-37 | `server=my-host` asks for help |
| CommandLine.PasswordMayGrantWrites | CmdLineArgs.cs:50-52 | a password containing `-rw` opens a read-write session |
| CommandLine.MissingServerThrows | CmdLineArgs.cs:152 | without help and without `server=`, assigning the null data source throws `ArgumentNullException` |
| CommandLine.MissingDatabaseThrows | CmdLineArgs.cs:153 | without help and without `database=`, assigning the null initial catalog throws `ArgumentNullException`; nothing falls back to `master` |
| CommandLine.EmptyServerIsNotReported | CmdLineArgs.cs:126-129 | an empty `server=` value makes "missing server name" the first validation message, yet no error is kept and the settings carry an empty data source |
| CommandLine.FullArgumentsExample | CmdLineArgs.cs:26-55 | the full option set yields the given values, read-write intent and settings that copy them, with integrated security off |
| CommandLine.WithAllOptions | CmdLineArgs.cs:44-54 | arguments naming all four options and `-rw`, without help, give an instance with those values and matching settings |

## Left out

- `Program.cs` (the read-eval-print loop, the Ctrl-C handler, `Environment.Exit`, `Console.Clear`) is console and process glue, not part of this model.
- `Stdio`, `IStdio`, `MockStdIo` and `ISqlEngine` are I/O and test plumbing.
- `Terminal.PrintUsage`, `Terminal.PrintConnectionInfo` and `Terminal.PrintErrors` write fixed text and are not modelled.
- The unused `Terminal.PrintHorizontalLine` is not modelled; `Terminal.Rule` stands for the same rule inside `PrintHeader` and `PrintRows`.
- `SqlEngine.Connect`, `Dispose`, the finalizer and the `DbChanged` event wiring talk to the driver or the runtime. The `USE` notification is returned as a value instead.
- The driver is an oracle. The cursor is given already drained, with the failure, if any, of the `Read` after the last record. Failures of `GetName`, a reader that is not a `SqlDataReader`, and the closing of the reader are not modelled.
- Cell values come from `value.ToString()`. The model receives them as strings, with `None` for a null cell. How `DBNull` prints depends on the driver and is left to it.
- SqlEngine.FormatQueryResult: requires every row to have a value for each column, which `ReadRawResults` guarantees. On a shorter row .NET would throw from the list indexer, and that message is not modelled.
- Terminal.DataTypeColor: `double.TryParse` and `DateTime.TryParse` depend on the current culture and are parameters.
- Terminal.IsBooleanText: compares the ASCII letters of `True`/`False` only. The few non-ASCII letters that ordinal case-insensitive comparison maps onto them are not modelled.
- Terminal.Print: `Padding.Values.Sum()` is checked 32-bit arithmetic and would throw `OverflowException` past 2^31 - 1. The sum is unbounded here, because it would need more than two billion characters of column width.
- Terminal.Print: `WriteLine` is taken to end a line with "\n". The console colour before the first write, and after an escaping exception, are not recorded.
- ClrString.ToUpper: only ASCII letters are upper-cased. The statement classifiers compare with ASCII markers, but a non-ASCII letter whose upper case is ASCII (such as `ı`) is not mapped.
- CommandLine.Validate: `SqlConnectionStringBuilder` is outside the model. Its fields are recorded as assigned. The null checks of its `DataSource` and `InitialCatalog` setters are modelled; any other check it makes on a value is not.
- SqlEngine.ExecuteNonQuery: the `Substring` message carries the parameter name in the form .NET Core 3.0 and later give it. .NET Framework puts it on a new line as "Parameter name: startIndex" instead.
- SqlEngine.ExecuteNonQuery: the three-character `USE` test and the offset 4 of the database name count Unicode scalar values, where `Substring` counts UTF-16 code units. A text of one character outside the Basic Multilingual Plane and one more character is too short here, and three code units long in .NET.
- SqlEngine.ExecuteCommand: the length below which the non-query path throws is counted in Unicode scalar values, not UTF-16 code units, for the same reason.
- CommandLine.Validate: the `Errors` property is not a member of the model. It returns a new, empty list on every access, so it is empty for every instance. `ValidationMessages` holds what `Validate` adds to those lists.
- ClrString.PadRight: lengths are counted in Unicode scalar values (Dafny characters), not UTF-16 code units. A character outside the Basic Multilingual Plane counts once here and twice in .NET.
- SqlEngine.MaxLength: lengths are counted in Unicode scalar values, not in the UTF-16 code units that `String.Length` counts.
- SqlEngine.ColumnPadding: widths are counted in Unicode scalar values, not UTF-16 code units. A cell holding one emoji gets width 3 here and 4 in .NET.
- CommandLine.Init: argument strings are never null here, as the runtime guarantees for `Main`'s arguments.
- `ExecutionResults.ColCount` is a 32-bit `int`. It is a `nat` here, since it only ever holds a field count.

=== FILE: clr_string.dfy ===
/** The .NET string operations the shell relies on, restated over
    `seq<char>`. Every comparison is ordinal; `ToUpper` is restricted to
    ASCII letters. */
module ClrString {
  import opened Optional

  /** `sub` occurs in `s` at index `i`. */
  predicate OccursAt(s: string, sub: string, i: int)
  {
    0 <= i && i + |sub| <= |s| && s[i..i + |sub|] == sub
  }

  /** `String.Contains(string)`, an ordinal substring test. */
  predicate Contains(s: string, sub: string)
    decreases |s|
  {
    sub <= s || (|s| > 0 && Contains(s[1..], sub))
  }

  /** `Contains` holds exactly when the needle occurs at some index. */
  lemma {:induction false} ContainsIffOccurs(s: string, sub: string)
    ensures Contains(s, sub) <==> exists i :: OccursAt(s, sub, i)
    decreases |s|
  {
    if sub <= s {
      assert OccursAt(s, sub, 0);
    }
    forall i | OccursAt(s, sub, i) && i == 0
      ensures sub <= s
    {
    }
    if |s| > 0 {
      ContainsIffOccurs(s[1..], sub);
      forall i | OccursAt(s[1..], sub, i)
        ensures OccursAt(s, sub, i + 1)
      {
        assert s[i + 1..i + 1 + |sub|] == s[1..][i..i + |sub|];
      }
      forall i | OccursAt(s, sub, i) && i > 0
        ensures OccursAt(s[1..], sub, i - 1)
      {
        assert s[1..][i - 1..i - 1 + |sub|] == s[i..i + |sub|];
      }
    }
  }

  /** `Char.ToUpperInvariant` on ASCII letters; every other character is kept. */
  function UpperChar(c: char): char
  {
    if 'a' <= c <= 'z' then (c as int - 32) as char else c
  }

  /** `String.ToUpper()`, restricted to ASCII case mapping. */
  function ToUpper(s: string): (r: string)
    ensures |r| == |s|
    ensures forall i :: 0 <= i < |s| ==> r[i] == UpperChar(s[i])
  {
    seq(|s|, i requires 0 <= i < |s| => UpperChar(s[i]))
  }

  /** The characters `Char.IsWhiteSpace` accepts: the Unicode space
      separators, the line and paragraph separators, and the control
      characters U+0009 to U+000D and U+0085. */
  const WhiteSpace: set<char> := {
    ' ', '\t', '\n', '\U{000B}', '\U{000C}', '\r',
    '\U{0085}', '\U{00A0}', '\U{1680}',
    '\U{2000}', '\U{2001}', '\U{2002}', '\U{2003}', '\U{2004}', '\U{2005}',
    '\U{2006}', '\U{2007}', '\U{2008}', '\U{2009}', '\U{200A}',
    '\U{2028}', '\U{2029}', '\U{202F}', '\U{205F}', '\U{3000}'
  }

  /** `Char.IsWhiteSpace`. */
  predicate IsWhiteSpace(c: char)
  {
    c in WhiteSpace
  }

  /** Every character of `s` is white space (vacuously so for ""). */
  predicate IsBlank(s: string)
  {
    forall i :: 0 <= i < |s| ==> IsWhiteSpace(s[i])
  }

  /** `String.IsNullOrWhiteSpace`. */
  predicate IsNullOrWhiteSpace(s: Option<string>)
  {
    s.None? || IsBlank(s.value)
  }

  /** `s` does not start or end with white space. */
  predicate IsTrimmed(s: string)
  {
    |s| == 0 || (!IsWhiteSpace(s[0]) && !IsWhiteSpace(s[|s| - 1]))
  }

  /** `String.TrimStart()`: drops the leading white space. */
  function TrimStart(s: string): (r: string)
    ensures |r| <= |s| && r == s[|s| - |r|..]
    ensures IsBlank(s[..|s| - |r|])
    ensures |r| > 0 ==> !IsWhiteSpace(r[0])
    decreases |s|
  {
    if |s| > 0 && IsWhiteSpace(s[0]) then TrimStart(s[1..]) else s
  }

  /** `String.TrimEnd()`: drops the trailing white space. */
  function TrimEnd(s: string): (r: string)
    ensures |r| <= |s| && r == s[..|r|]
    ensures IsBlank(s[|r|..])
    ensures |r| > 0 ==> !IsWhiteSpace(r[|r| - 1])
    decreases |s|
  {
    if |s| > 0 && IsWhiteSpace(s[|s| - 1]) then TrimEnd(s[..|s| - 1]) else s
  }

  /** `String.Trim()`: drops the leading and the trailing white space. */
  function Trim(s: string): (r: string)
    ensures |r| <= |s|
    ensures IsTrimmed(r)
  {
    TrimEnd(TrimStart(s))
  }

  /** What `Trim` keeps: nothing exactly when `s` is blank, all of `s`
      exactly when `s` has no surrounding white space. */
  lemma TrimFacts(s: string)
    ensures |Trim(s)| == 0 <==> IsBlank(s)
    ensures IsTrimmed(s) <==> Trim(s) == s
    ensures |Trim(s)| == |s| ==> Trim(s) == s
  {
    TrimEmptyIffBlank(s);
    if IsTrimmed(s) && |s| > 0 {
      assert TrimStart(s) == s;
      assert TrimEnd(s) == s;
    }
  }

  lemma TrimEmptyIffBlank(s: string)
    ensures |Trim(s)| == 0 <==> IsBlank(s)
  {
    var t := TrimStart(s);
    if |TrimEnd(t)| == 0 {
      assert IsBlank(t[|TrimEnd(t)|..]);
      assert |t| == 0;
      assert s[..|s| - |t|] == s;
    }
  }

  /** Appending white space does not change what `Trim` returns. */
  lemma TrimIgnoresBlankSuffix(s: string, pad: string)
    requires IsBlank(pad)
    ensures Trim(s + pad) == Trim(s)
  {
    TrimStartKeepsBlankSuffix(s, pad);
    if |TrimStart(s)| > 0 {
      TrimEndDropsBlankSuffix(TrimStart(s), pad);
    }
  }

  /** Leading white space is dropped up to the first other character, so a
      blank suffix survives `TrimStart` unless `s` is blank altogether. */
  lemma {:induction false} TrimStartKeepsBlankSuffix(s: string, pad: string)
    requires IsBlank(pad)
    ensures |TrimStart(s)| > 0 ==> TrimStart(s + pad) == TrimStart(s) + pad
    ensures |TrimStart(s)| == 0 ==> |TrimStart(s + pad)| == 0
    decreases |s|
  {
    if |s| == 0 {
      assert s + pad == pad;
    } else if IsWhiteSpace(s[0]) {
      assert (s + pad)[1..] == s[1..] + pad;
      TrimStartKeepsBlankSuffix(s[1..], pad);
    }
  }

  /** Trailing white space is dropped whatever precedes it. */
  lemma {:induction false} TrimEndDropsBlankSuffix(s: string, pad: string)
    requires IsBlank(pad)
    ensures TrimEnd(s + pad) == TrimEnd(s)
    decreases |pad|
  {
    if |pad| > 0 {
      var u := s + pad;
      assert IsWhiteSpace(u[|u| - 1]);
      assert u[..|u| - 1] == s + pad[..|pad| - 1];
      TrimEndDropsBlankSuffix(s, pad[..|pad| - 1]);
    } else {
      assert s + pad == s;
    }
  }

  /** `String.PadRight(totalWidth, fill)`: `s` followed by enough copies of
      `fill` to reach `width` characters; a longer `s` is kept as it is.
      .NET throws on a negative width, hence the precondition. */
  function PadRight(s: string, width: int, fill: char): (r: string)
    requires width >= 0
    ensures |r| == if |s| >= width then |s| else width
    ensures s <= r
    ensures forall i :: |s| <= i < |r| ==> r[i] == fill
  {
    if |s| >= width then s else s + seq(width - |s|, _ => fill)
  }

  /** `String.Replace(key, "")`: removes the occurrences of `key` found by a
      left-to-right scan that skips past each match. .NET rejects an empty
      `key`, hence the precondition. */
  function RemoveAll(s: string, key: string): (r: string)
    requires |key| > 0
    ensures |r| <= |s|
    decreases |s|
  {
    if |s| == 0 then ""
    else if key <= s then RemoveAll(s[|key|..], key)
    else [s[0]] + RemoveAll(s[1..], key)
  }

  /** A string without the key is left untouched. */
  lemma {:induction false} RemoveAllAbsent(s: string, key: string)
    requires |key| > 0
    requires !Contains(s, key)
    ensures RemoveAll(s, key) == s
    decreases |s|
  {
    if |s| > 0 {
      RemoveAllAbsent(s[1..], key);
      assert [s[0]] + s[1..] == s;
    }
  }

  /** Removing a leading key from `key + v` gives back `v` when `v` holds
      no further occurrence of the key. */
  lemma RemoveAllLeadingKey(key: string, v: string)
    requires |key| > 0
    requires !Contains(v, key)
    ensures RemoveAll(key + v, key) == v
  {
    assert key <= key + v;
    assert (key + v)[|key|..] == v;
    RemoveAllAbsent(v, key);
  }

  /** `String.Join(sep, parts)`. */
  function Join(parts: seq<string>, sep: string): string
    decreases |parts|
  {
    if |parts| == 0 then ""
    else if |parts| == 1 then parts[0]
    else parts[0] + sep + Join(parts[1..], sep)
  }
}

=== FILE: command.dfy ===
/** `Command.Build`, the statement accumulator, as a function of the lines
    the console would deliver. `None` is the `null` that `ReadLine`
    returns at the end of input, and reading past the given lines keeps
    returning it.

    As written, every line that is not a control word is appended to the
    buffer twice; `exit` and `clear` match only in lower case and only
    without surrounding white space; and the `;` test indexes the trimmed
    line at the untrimmed line's last position, which throws for any
    non-blank line with leading or trailing white space. */
module Command {
  import opened Optional
  import opened ClrString

  const Prompt: string := "tsqlsh> "
  const ContinuationPrompt: string := "    ... "

  /** What `Build` returns, or the exception it lets escape. */
  datatype Built = Control(word: string) | Statement(text: string) | Crashed(exception: string)

  /** One call of `Build`: its outcome, how many `ReadLine` calls it made,
      and the prompts it wrote, in order. */
  datatype Session = Session(built: Built, consumed: nat, prompts: seq<string>)

  /** The `k`-th `ReadLine` result. */
  function ReadAt(input: seq<Option<string>>, k: nat): Option<string>
  {
    if k < |input| then input[k] else None
  }

  /** The first `n` `ReadLine` results. */
  function Reads(input: seq<Option<string>>, n: nat): (r: seq<Option<string>>)
    ensures |r| == n
    ensures forall k :: 0 <= k < n ==> r[k] == ReadAt(input, k)
  {
    seq(n, k requires 0 <= k < n => ReadAt(input, k))
  }

  /** `cmdtext + " "`: C# concatenation reads a null line as "". */
  function Spaced(line: Option<string>): string
  {
    line.OrElse("") + " "
  }

  /** What the buffer holds after the given lines: each appended twice. */
  function Echo(lines: seq<Option<string>>): string
    decreases |lines|
  {
    if |lines| == 0 then ""
    else
      var last := lines[|lines| - 1];
      Echo(lines[..|lines| - 1]) + Spaced(last) + Spaced(last)
  }

  /** `exit` and `clear`, compared ordinally. */
  predicate IsControlWord(line: Option<string>)
  {
    line == Some("exit") || line == Some("clear")
  }

  /** A line after which `Build` writes the continuation prompt and reads
      on: not a control word, not blank, without surrounding white space
      and not ending in `;`. */
  predicate Continues(line: Option<string>)
  {
    && line.Some?
    && !IsControlWord(line)
    && |line.value| > 0
    && !IsBlank(line.value)
    && IsTrimmed(line.value)
    && line.value[|line.value| - 1] != ';'
  }

  /** A non-blank line whose `Trim()` is shorter than the line itself, so
      the `;` test indexes past its end. */
  predicate IndexesPastEnd(line: Option<string>)
  {
    line.Some? && !IsControlWord(line) && !IsBlank(line.value) && !IsTrimmed(line.value)
  }

  /** What `Build` does after appending a line. */
  datatype Verdict = ReturnControl | Submit | Throw | ReadOn

  /** The decision `Build` takes on the line it just read: the control
      word switch, then the blank test, then the `;` test that indexes the
      trimmed line at the untrimmed line's last position. By what it means
      for the line: a control word returns, surrounding white space
      throws, and the lines that read on are exactly those `Continues`
      describes. */
  function Decide(cmdtext: Option<string>): (v: Verdict)
    ensures v == ReturnControl <==> IsControlWord(cmdtext)
    ensures v == Throw <==> IndexesPastEnd(cmdtext)
    ensures v == ReadOn <==> Continues(cmdtext)
  {
    if IsControlWord(cmdtext) then ReturnControl
    else if IsNullOrWhiteSpace(cmdtext) then Submit
    else
      var line := cmdtext.value;
      var trimmed := Trim(line);
      TrimIndexFacts(line);
      if |line| - 1 >= |trimmed| then Throw
      else if trimmed[|line| - 1] == ';' then Submit
      else ReadOn
  }

  /** For a non-blank line, `Trim()` comes up short exactly when the line
      has surrounding white space, and otherwise ends where the line ends. */
  lemma TrimIndexFacts(line: string)
    requires !IsBlank(line)
    ensures |line| > 0
    ensures |line| - 1 >= |Trim(line)| <==> !IsTrimmed(line)
    ensures IsTrimmed(line) ==> Trim(line)[|line| - 1] == line[|line| - 1]
  {
    TrimFacts(line);
  }

  /** The loop of `Build` from its `k`-th read on: the index of the first
      line, from `k`, on which `Build` does not read on. Past the given
      lines `ReadLine` returns `null`, which submits, so the search ends
      within the input or just past it. */
  function Scan(input: seq<Option<string>>, k: nat): (n: nat)
    requires k <= |input|
    ensures k <= n <= |input|
    ensures forall i :: k <= i < n ==> Continues(ReadAt(input, i))
    ensures !Continues(ReadAt(input, n))
    decreases |input| - k
  {
    if k == |input| || !Continues(input[k]) then k
    else Scan(input, k + 1)
  }

  /** `Command.Build`: the primary prompt, then one continuation prompt per
      line that reads on; the buffer gains every line twice, and on a
      `break` it is trimmed and returned. */
  function Build(input: seq<Option<string>>): (s: Session)
    ensures 0 < s.consumed <= |input| + 1
    ensures forall i :: 0 <= i < s.consumed - 1 ==> Continues(ReadAt(input, i))
    ensures !Continues(ReadAt(input, s.consumed - 1))
    ensures s.built.Control? <==> IsControlWord(ReadAt(input, s.consumed - 1))
    ensures s.built.Control? ==> s.built.word == ReadAt(input, s.consumed - 1).value
    ensures s.built.Crashed? <==> IndexesPastEnd(ReadAt(input, s.consumed - 1))
    ensures s.built.Crashed? ==> s.built.exception == IndexOutOfRangeException
    ensures s.built.Statement? ==> s.built.text == Trim(Echo(Reads(input, s.consumed)))
    ensures |s.prompts| == s.consumed && s.prompts[0] == Prompt
    ensures forall i :: 1 <= i < |s.prompts| ==> s.prompts[i] == ContinuationPrompt
  {
    var last := Scan(input, 0);
    Session(Finish(ReadAt(input, last), Echo(Reads(input, last + 1))),
      last + 1, [Prompt] + seq(last, _ => ContinuationPrompt))
  }

  /** How `Build` leaves its loop on the line that does not read on: a
      control word is returned, the `;` test throws, or the buffer is
      trimmed and returned. */
  function Finish(line: Option<string>, buffer: string): (b: Built)
    ensures b.Control? <==> IsControlWord(line)
    ensures b.Control? ==> b.word == line.value
    ensures b.Crashed? <==> IndexesPastEnd(line)
    ensures b.Crashed? ==> b.exception == IndexOutOfRangeException
    ensures b.Statement? ==> b.text == Trim(buffer)
  {
    var verdict := Decide(line);
    if verdict == ReturnControl then Control(line.value)
    else if verdict == Throw then Crashed(IndexOutOfRangeException)
    else Statement(Trim(buffer))
  }

  /** Reading stops at the first line that does not continue the
      statement. */
  lemma StopsAtFirstNonContinuing(input: seq<Option<string>>, k: nat)
    requires forall i :: 0 <= i < k ==> Continues(ReadAt(input, i))
    requires !Continues(ReadAt(input, k))
    ensures Build(input).consumed == k + 1
  {
    var last: nat := Build(input).consumed - 1;
    assert last < k ==> Continues(ReadAt(input, last));
    assert last > k ==> Continues(ReadAt(input, k));
  }

  /** A control word returns itself, whatever was typed before it. */
  lemma ControlWordDiscardsBuffer(input: seq<Option<string>>, k: nat)
    requires forall i :: 0 <= i < k ==> Continues(ReadAt(input, i))
    requires IsControlWord(ReadAt(input, k))
    ensures Build(input).built == Control(ReadAt(input, k).value)
  {
    StopsAtFirstNonContinuing(input, k);
  }

  /** A line that ends the statement without being a control word or
      indexing past its end submits the buffer, itself included. */
  lemma SubmitsAt(input: seq<Option<string>>, k: nat)
    requires forall i :: 0 <= i < k ==> Continues(ReadAt(input, i))
    requires !Continues(ReadAt(input, k))
    requires !IsControlWord(ReadAt(input, k)) && !IndexesPastEnd(ReadAt(input, k))
    ensures Build(input).consumed == k + 1
    ensures Build(input).built == Statement(Trim(Echo(Reads(input, k + 1))))
  {
    StopsAtFirstNonContinuing(input, k);
  }

  /** Control words are case-sensitive: `EXIT` is ordinary text, echoed
      twice and submitted at the end of input. */
  lemma UpperCaseExitIsText()
    ensures Build([Some("EXIT")]).built == Statement("EXIT EXIT")
  {
    var input := [Some("EXIT")];
    ExitReadsOn();
    assert ReadAt(input, 0) == Some("EXIT");
    assert ReadAt(input, 1) == None;
    SubmitsAt(input, 1);
    ExitEcho();
  }

  /** Example fact for `UpperCaseExitIsText`: `EXIT` is not `exit`, and
      reads on. */
  lemma ExitReadsOn()
    ensures Continues(Some("EXIT"))
  {
    assert "EXIT"[0] != "exit"[0] && "EXIT"[0] != "clear"[0];
    assert !IsWhiteSpace("EXIT"[0]) && !IsWhiteSpace("EXIT"[3]);
  }

  /** `EXIT` then the end of input leaves `EXIT EXIT` once trimmed. */
  lemma ExitEcho()
    ensures Trim(Echo(Reads([Some("EXIT")], 2))) == "EXIT EXIT"
  {
    var input := [Some("EXIT")];
    var lines := Reads(input, 2);
    assert lines == [Some("EXIT"), None];
    assert lines[..1] == [Some("EXIT")];
    assert [Some("EXIT")][..0] == [];
    assert Echo([Some("EXIT")]) == "EXIT EXIT ";
    assert Echo(lines) == "EXIT EXIT" + "   ";
    assert !IsWhiteSpace("EXIT EXIT"[0]) && !IsWhiteSpace("EXIT EXIT"[8]);
    TrimIgnoresBlankSuffix("EXIT EXIT", "   ");
    TrimFacts("EXIT EXIT");
  }

  /** A line with surrounding white space that is neither blank nor a
      control word makes `Build` throw once it is read. */
  lemma SurroundingWhiteSpaceThrows(input: seq<Option<string>>, k: nat)
    requires forall i :: 0 <= i < k ==> Continues(ReadAt(input, i))
    requires IndexesPastEnd(ReadAt(input, k))
    ensures Build(input).built == Crashed(IndexOutOfRangeException)
  {
    StopsAtFirstNonContinuing(input, k);
  }

  /** A blank line, or the end of input, submits whatever is buffered. */
  lemma BlankLineSubmits(input: seq<Option<string>>, k: nat)
    requires forall i :: 0 <= i < k ==> Continues(ReadAt(input, i))
    requires IsNullOrWhiteSpace(ReadAt(input, k))
    ensures Build(input).consumed == k + 1
    ensures Build(input).built == Statement(Trim(Echo(Reads(input, k + 1))))
  {
    ControlWordsAreNotBlank();
    SubmitsAt(input, k);
  }

  /** Example fact for `BlankLineSubmits`: neither control word is blank. */
  lemma ControlWordsAreNotBlank()
    ensures !IsBlank("exit") && !IsBlank("clear")
  {
    assert !IsWhiteSpace("exit"[0]) && !IsWhiteSpace("clear"[0]);
  }

  /** A line ending in `;` (without surrounding white space) submits the
      buffer, itself included. */
  lemma SemicolonSubmits(input: seq<Option<string>>, k: nat)
    requires forall i :: 0 <= i < k ==> Continues(ReadAt(input, i))
    requires var line := ReadAt(input, k);
      && line.Some? && !IsControlWord(line) && |line.value| > 0
      && IsTrimmed(line.value) && line.value[|line.value| - 1] == ';'
    ensures Build(input).consumed == k + 1
    ensures Build(input).built == Statement(Trim(Echo(Reads(input, k + 1))))
  {
    var line := ReadAt(input, k).value;
    assert !IsWhiteSpace(line[|line| - 1]);
    assert !IsBlank(line);
    SubmitsAt(input, k);
  }

  /** A single `;`-terminated line comes back doubled: `s s`. */
  lemma SingleLineDoubled(input: seq<Option<string>>, line: string)
    requires |input| > 0 && input[0] == Some(line)
    requires !IsControlWord(Some(line)) && |line| > 0
    requires IsTrimmed(line) && line[|line| - 1] == ';'
    ensures Build(input).built == Statement(line + " " + line)
  {
    SemicolonSubmits(input, 0);
    DoubledEcho(input, line);
  }

  /** The first line, echoed twice and trimmed. */
  lemma DoubledEcho(input: seq<Option<string>>, line: string)
    requires |input| > 0 && input[0] == Some(line)
    requires |line| > 0 && IsTrimmed(line)
    ensures Trim(Echo(Reads(input, 1))) == line + " " + line
  {
    var once := Reads(input, 1);
    assert once == [Some(line)];
    assert once[..0] == [];
    var doubled := line + " " + line;
    assert Echo(once) == doubled + " ";
    assert doubled[0] == line[0] && doubled[|doubled| - 1] == line[|line| - 1];
    TrimIgnoresBlankSuffix(doubled, " ");
    TrimFacts(doubled);
  }

  /** The worked example: `SELECT 1;` yields `SELECT 1; SELECT 1;`. */
  lemma SelectOneExample(input: seq<Option<string>>)
    requires |input| > 0 && input[0] == Some("SELECT 1;")
    ensures Build(input).built == Statement("SELECT 1; SELECT 1;")
  {
    SelectOneIsStatement();
    SingleLineDoubled(input, "SELECT 1;");
    SelectOneTwice("SELECT 1;");
  }

  /** Example fact for `SelectOneExample`: the doubled line, spelled out. */
  lemma SelectOneTwice(line: string)
    requires line == "SELECT 1;"
    ensures line + " " + line == "SELECT 1; SELECT 1;"
  {
  }

  /** `SELECT 1;` is a `;`-terminated line without surrounding white space. */
  lemma SelectOneIsStatement()
    ensures !IsControlWord(Some("SELECT 1;"))
    ensures IsTrimmed("SELECT 1;") && "SELECT 1;"[8] == ';'
  {
    var line := "SELECT 1;";
    assert line[0] != "exit"[0] && line[0] != "clear"[0];
    assert !IsWhiteSpace(line[0]) && !IsWhiteSpace(line[8]);
  }
}

=== FILE: command_line.dfy ===
/** `CmdLineArgs`: substring-based option extraction, the help switch,
    the access intent and validation.

    As written, `Errors` hands out a new empty list on every access, so
    the messages `Validate` adds are lost and `HasErrors` is never set.
    The settings are then built, and the builder's `DataSource` and
    `InitialCatalog` setters throw `ArgumentNullException` on a null
    value: without a `server=` or a `database=` argument the constructor
    throws instead of reporting a message. Options are found by
    substring, so `-h` inside any argument (`server=my-host`) asks for
    help and `-rw` inside any argument (`pwd=x-rw`) asks for writes. */
module CommandLine {
  import opened Optional
  import opened ClrString

  /** `ApplicationIntent`. */
  datatype Intent = ReadOnly | ReadWrite

  /** The `SqlConnectionStringBuilder` fields `Validate` sets. The builder
      refuses null for every one of them, so none is nullable. */
  datatype ConnectionSettings = ConnectionSettings(
    dataSource: string,
    initialCatalog: string,
    userId: string,
    password: string,
    intent: Intent,
    integratedSecurity: bool)

  /** The properties of a `CmdLineArgs` instance; unset references are
      `None`. */
  datatype CmdLineArgs = CmdLineArgs(
    server: Option<string>,
    database: Option<string>,
    user: Option<string>,
    password: Option<string>,
    showHelp: bool,
    intent: Intent,
    hasErrors: bool,
    sqlConnection: Option<ConnectionSettings>)

  /** A new instance before `Init` assigns anything: `Intent` starts as
      `ReadOnly`, everything else at its default. */
  const Fresh: CmdLineArgs := CmdLineArgs(None, None, None, None, false, ReadOnly, false, None)

  const ServerKey: string := "server="
  const DatabaseKey: string := "database="
  const UserKey: string := "user="
  const PasswordKey: string := "pwd="
  const ReadWriteFlag: string := "-rw"
  const ShortHelpFlag: string := "-h"
  const LongHelpFlag: string := "--help"

  /** Some argument contains `key`. */
  predicate Mentions(args: seq<string>, key: string)
  {
    exists i :: 0 <= i < |args| && Contains(args[i], key)
  }

  /** The index of the first argument containing `key`, or `|args|` when
      there is none. */
  function FirstIndex(args: seq<string>, key: string): (i: nat)
    ensures i <= |args|
    ensures forall j :: 0 <= j < i ==> !Contains(args[j], key)
    ensures i < |args| ==> Contains(args[i], key)
    decreases |args|
  {
    if |args| == 0 then 0
    else if Contains(args[0], key) then 0
    else FirstIndex(args[1..], key) + 1
  }

  /** `args.FirstOrDefault(a => a.Contains(key))`. */
  function FirstContaining(args: seq<string>, key: string): (r: Option<string>)
    ensures r.None? <==> forall j :: 0 <= j < |args| ==> !Contains(args[j], key)
    ensures r.Some? ==> r.value == args[FirstIndex(args, key)]
  {
    var i := FirstIndex(args, key);
    if i < |args| then Some(args[i]) else None
  }

  /** `FirstOrDefault(…)?.Replace(key, "")`: the first argument holding the
      key, with every occurrence of the key removed. */
  function Extract(args: seq<string>, key: string): (r: Option<string>)
    requires |key| > 0
    ensures r.None? <==> forall j :: 0 <= j < |args| ==> !Contains(args[j], key)
    ensures r.Some? ==> exists j ::
      && 0 <= j < |args| && Contains(args[j], key)
      && (forall k :: 0 <= k < j ==> !Contains(args[k], key))
      && r.value == RemoveAll(args[j], key)
  {
    match FirstContaining(args, key)
    case None => None
    case Some(a) => Some(RemoveAll(a, key))
  }

  /** The help test: no arguments, or one containing `-h` or `--help`. */
  predicate WantsHelp(args: seq<string>)
  {
    || |args| == 0
    || exists i :: 0 <= i < |args| && (Contains(args[i], ShortHelpFlag) || Contains(args[i], LongHelpFlag))
  }

  /** `--help` contains `-h`, so the second half of the help test never
      decides anything: help is shown exactly when there are no arguments
      or one of them contains `-h`. */
  lemma HelpIsShortFlag(args: seq<string>)
    ensures WantsHelp(args) <==>
      |args| == 0 || exists i :: 0 <= i < |args| && Contains(args[i], ShortHelpFlag)
  {
    forall i | 0 <= i < |args| && Contains(args[i], LongHelpFlag)
      ensures Contains(args[i], ShortHelpFlag)
    {
      LongFlagHoldsShortFlag(args[i]);
    }
  }

  lemma LongFlagHoldsShortFlag(a: string)
    requires Contains(a, LongHelpFlag)
    ensures Contains(a, ShortHelpFlag)
  {
    ContainsIffOccurs(a, LongHelpFlag);
    var i :| OccursAt(a, LongHelpFlag, i);
    assert a[i + 1] == a[i..i + 6][1] == '-';
    assert a[i + 2] == a[i..i + 6][2] == 'h';
    assert a[i + 1..i + 3] == [a[i + 1], a[i + 2]];
    assert OccursAt(a, ShortHelpFlag, i + 1);
    ContainsIffOccurs(a, ShortHelpFlag);
  }

  /** The four validation messages; the last two are built from the same
      parts in opposite order. */
  const MissingServer: string := "missing server name"
  const MissingDatabase: string := "missing database name"
  const APassword: string := "a password"
  const AUserName: string := "a user name"
  const PasswordRequired: string := APassword + " is required if supplying " + AUserName
  const UserRequired: string := AUserName + " is required if supplying " + APassword

  /** The four messages are different from each other. */
  lemma MessagesDistinct()
    ensures MissingServer != MissingDatabase && MissingServer != PasswordRequired
    ensures MissingServer != UserRequired && MissingDatabase != PasswordRequired
    ensures MissingDatabase != UserRequired && PasswordRequired != UserRequired
  {
    assert MissingServer[0] != PasswordRequired[0] && MissingServer[0] != UserRequired[0];
    assert MissingDatabase[0] != PasswordRequired[0] && MissingDatabase[0] != UserRequired[0];
    assert PasswordRequired[2] != UserRequired[2];
  }

  /** The messages `Validate` adds, in the order of its checks. */
  function ValidationMessages(c: CmdLineArgs): (msgs: seq<string>)
    ensures MissingServer in msgs <==> IsNullOrWhiteSpace(c.server)
    ensures MissingDatabase in msgs <==> IsNullOrWhiteSpace(c.database)
    ensures PasswordRequired in msgs <==>
      !IsNullOrWhiteSpace(c.user) && IsNullOrWhiteSpace(c.password)
    ensures UserRequired in msgs <==>
      IsNullOrWhiteSpace(c.user) && !IsNullOrWhiteSpace(c.password)
    ensures |msgs| <= 3
  {
    MessagesDistinct();
    (if IsNullOrWhiteSpace(c.server) then [MissingServer] else [])
    + (if IsNullOrWhiteSpace(c.database) then [MissingDatabase] else [])
    + (if !IsNullOrWhiteSpace(c.user) && IsNullOrWhiteSpace(c.password)
       then [PasswordRequired] else [])
    + (if IsNullOrWhiteSpace(c.user) && !IsNullOrWhiteSpace(c.password)
       then [UserRequired] else [])
  }

  /** `s` holds what `Validate` assigns from `c`: server, database and
      intent as they are, a null user or password as "", and integrated
      security exactly when no user name is given. */
  predicate BuiltFrom(s: ConnectionSettings, c: CmdLineArgs)
  {
    && c.server == Some(s.dataSource) && c.database == Some(s.initialCatalog)
    && s.userId == c.user.OrElse("") && s.password == c.password.OrElse("")
    && s.intent == c.intent
    && (s.integratedSecurity <==> IsNullOrWhiteSpace(c.user))
  }

  /** `Validate`: each message goes to a list `Errors` has just created
      and nobody keeps, so only the `HasErrors` test remains, and it sees
      whatever `HasErrors` already was. The settings are built next; a null
      server or database makes the builder throw. */
  function Validate(c: CmdLineArgs): (r: Result<CmdLineArgs>)
    ensures r.Failure? <==> !c.hasErrors && (c.server.None? || c.database.None?)
    ensures r.Failure? ==> r.exception == ArgumentNullException
    ensures c.hasErrors ==> r == Success(c)
    ensures r.Success? ==> r.value.(sqlConnection := c.sqlConnection) == c
    ensures r.Success? && !c.hasErrors ==>
      r.value.sqlConnection.Some? && BuiltFrom(r.value.sqlConnection.value, c)
  {
    if c.hasErrors then Success(c)
    else if c.server.None? || c.database.None? then Failure(ArgumentNullException)
    else
      var s := ConnectionSettings(c.server.value, c.database.value, c.user.OrElse(""),
        c.password.OrElse(""), c.intent, IsNullOrWhiteSpace(c.user));
      Success(c.(sqlConnection := Some(s)))
  }

  /** `Init`: a null `args` throws from `FirstOrDefault` before the null
      test is reached. Help leaves every other property at its default;
      otherwise the four options are extracted, the intent is read from
      `-rw`, and `Validate` runs, throwing when `server=` or `database=` is
      missing. */
  function Init(args: Option<seq<string>>): (r: Result<CmdLineArgs>)
    ensures r.Failure? <==> (
      || args.None?
      || (!WantsHelp(args.value) && (!Mentions(args.value, ServerKey) || !Mentions(args.value, DatabaseKey))))
    ensures r.Failure? ==> r.exception == ArgumentNullException
    ensures r.Success? ==> (r.value.showHelp <==> WantsHelp(args.value))
    ensures r.Success? && r.value.showHelp ==> r.value == Fresh.(showHelp := true)
    ensures r.Success? && !r.value.showHelp ==>
      var a := args.value;
      && r.value.server == Extract(a, ServerKey)
      && r.value.database == Extract(a, DatabaseKey)
      && r.value.user == Extract(a, UserKey)
      && r.value.password == Extract(a, PasswordKey)
      && (r.value.intent == ReadWrite <==> Mentions(a, ReadWriteFlag))
      && !r.value.hasErrors
      && r.value.sqlConnection.Some? && BuiltFrom(r.value.sqlConnection.value, r.value)
  {
    if args.None? then Failure(ArgumentNullException)
    else
      var a := args.value;
      if WantsHelp(a) then Success(Fresh.(showHelp := true))
      else
        var parsed := Fresh.(
          server := Extract(a, ServerKey),
          database := Extract(a, DatabaseKey),
          user := Extract(a, UserKey),
          password := Extract(a, PasswordKey),
          intent := if FirstContaining(a, ReadWriteFlag).None? then ReadOnly else ReadWrite);
        Validate(parsed)
  }

  /** Whenever `Init` returns, which it does for help and for arguments
      naming a server and a database, `HasErrors` is false, even when
      validation found something to complain about: every message went to
      a list that `Errors` created and nobody kept. Without help the
      settings exist. */
  lemma ErrorsAreLost(args: seq<string>)
    requires WantsHelp(args) || (Mentions(args, ServerKey) && Mentions(args, DatabaseKey))
    ensures Init(Some(args)).Success?
    ensures var c := Init(Some(args)).value;
      && !c.hasErrors
      && (!c.showHelp ==> c.sqlConnection.Some?)
  {
  }

  /** A server name with `-h` in it asks for help instead of connecting. */
  lemma HyphenatedServerShowsHelp(args: seq<string>)
    requires args == ["server=my-host", "database=db"]
    ensures Init(Some(args)).value.showHelp
  {
    assert OccursAt(args[0], ShortHelpFlag, 9);
    ContainsIffOccurs(args[0], ShortHelpFlag);
  }

  /** A password with `-rw` in it opens a read-write session. */
  lemma PasswordMayGrantWrites(args: seq<string>)
    requires |args| == 4 && args[0] == "server=s" && args[1] == "database=d"
    requires args[2] == "user=u" && args[3] == "pwd=x-rw"
    ensures Init(Some(args)).Success?
    ensures !Init(Some(args)).value.showHelp
    ensures Init(Some(args)).value.intent == ReadWrite
  {
    NoHelpIn(args);
    LeadingKey(args, 0, ServerKey, "s");
    LeadingKey(args, 1, DatabaseKey, "d");
    assert OccursAt(args[3], ReadWriteFlag, 5);
    ContainsIffOccurs(args[3], ReadWriteFlag);
  }

  /** An argument that starts with `key` mentions it. */
  lemma LeadingKey(args: seq<string>, i: nat, key: string, v: string)
    requires i < |args| && args[i] == key + v
    ensures Mentions(args, key)
  {
    assert OccursAt(args[i], key, 0);
    ContainsIffOccurs(args[i], key);
  }

  /** A string without `h` does not contain `-h`. */
  lemma NoShortFlag(a: string)
    requires forall k :: 0 <= k < |a| ==> a[k] != 'h'
    ensures !Contains(a, ShortHelpFlag)
  {
    LacksCharacter(a, ShortHelpFlag, 1);
  }

  /** A string lacking one of the characters of `key` does not contain it. */
  lemma {:induction false} LacksCharacter(a: string, key: string, m: nat)
    requires m < |key|
    requires forall k :: 0 <= k < |a| ==> a[k] != key[m]
    ensures !Contains(a, key)
    decreases |a|
  {
    if |key| <= |a| {
      assert a[m] != key[m];
    }
    if |a| > 0 {
      LacksCharacter(a[1..], key, m);
    }
  }

  /** Without a `server=` argument the data source is null, and assigning
      it to the builder throws. */
  lemma MissingServerThrows(args: seq<string>)
    requires !WantsHelp(args) && !Mentions(args, ServerKey)
    ensures Init(Some(args)) == Failure(ArgumentNullException)
  {
  }

  /** Without a `database=` argument the initial catalog is null, and
      assigning it to the builder throws; nothing falls back to `master`. */
  lemma MissingDatabaseThrows(args: seq<string>)
    requires !WantsHelp(args) && !Mentions(args, DatabaseKey)
    ensures Init(Some(args)) == Failure(ArgumentNullException)
  {
  }

  /** A `server=` argument with nothing after it makes validation complain
      about a missing server name, but the complaint is lost: no errors,
      and settings with an empty data source. */
  lemma EmptyServerIsNotReported(args: seq<string>)
    requires !WantsHelp(args) && Mentions(args, DatabaseKey)
    requires Extract(args, ServerKey) == Some("")
    ensures Init(Some(args)).Success?
    ensures var c := Init(Some(args)).value;
      && c.server == Some("")
      && ValidationMessages(c)[0] == MissingServer
      && !c.hasErrors
      && c.sqlConnection.value.dataSource == ""
  {
  }

  /** The full set of options, as a user would type them, yields the
      values given, a read-write intent and settings that copy them. */
  lemma FullArgumentsExample(args: seq<string>)
    requires |args| == 5 && args[0] == "server=test_svr" && args[1] == "database=test_db"
    requires args[2] == "user=test_usr" && args[3] == "pwd=test_pwd" && args[4] == "-rw"
    ensures var c := Init(Some(args)).value;
      && !c.showHelp
      && c.server == Some("test_svr") && c.database == Some("test_db")
      && c.user == Some("test_usr") && c.password == Some("test_pwd")
      && c.intent == ReadWrite
      && c.sqlConnection == Some(ConnectionSettings(
           "test_svr", "test_db", "test_usr", "test_pwd", ReadWrite, false))
  {
    FullArgumentsNoHelp(args);
    FullArgumentsValues(args);
    FullArgumentsFlags(args);
    WithAllOptions(args, 4, "test_svr", "test_db", "test_usr", "test_pwd");
  }

  lemma FullArgumentsFlags(args: seq<string>)
    requires |args| == 5 && args[4] == "-rw"
    ensures Contains(args[4], ReadWriteFlag) && !IsBlank("test_usr")
  {
    assert OccursAt(args[4], ReadWriteFlag, 0);
    ContainsIffOccurs(args[4], ReadWriteFlag);
    assert !IsWhiteSpace("test_usr"[0]);
  }

  /** Arguments that do not ask for help and name all four options and
      `-rw` produce a read-write instance holding the four values. */
  lemma WithAllOptions(args: seq<string>, rw: nat, server: string, database: string, user: string, password: string)
    requires !WantsHelp(args)
    requires Extract(args, ServerKey) == Some(server) && Extract(args, DatabaseKey) == Some(database)
    requires Extract(args, UserKey) == Some(user) && Extract(args, PasswordKey) == Some(password)
    requires rw < |args| && Contains(args[rw], ReadWriteFlag)
    requires !IsBlank(user)
    ensures var c := Init(Some(args)).value;
      && !c.showHelp
      && c.server == Some(server) && c.database == Some(database)
      && c.user == Some(user) && c.password == Some(password)
      && c.intent == ReadWrite
      && c.sqlConnection == Some(ConnectionSettings(
           server, database, user, password, ReadWrite, false))
  {
  }

  lemma FullArgumentsNoHelp(args: seq<string>)
    requires |args| == 5 && args[0] == "server=test_svr" && args[1] == "database=test_db"
    requires args[2] == "user=test_usr" && args[3] == "pwd=test_pwd" && args[4] == "-rw"
    ensures !WantsHelp(args)
  {
    NoHelpIn(args);
  }

  /** Arguments none of which has an `h` in it do not ask for help. */
  lemma NoHelpIn(args: seq<string>)
    requires |args| > 0
    requires forall i, k :: 0 <= i < |args| && 0 <= k < |args[i]| ==> args[i][k] != 'h'
    ensures !WantsHelp(args)
  {
    forall i | 0 <= i < |args|
      ensures !Contains(args[i], ShortHelpFlag)
    {
      NoShortFlag(args[i]);
    }
    HelpIsShortFlag(args);
  }

  lemma FullArgumentsValues(args: seq<string>)
    requires |args| > 3 && args[0] == "server=test_svr" && args[1] == "database=test_db"
    requires args[2] == "user=test_usr" && args[3] == "pwd=test_pwd"
    ensures Extract(args, ServerKey) == Some("test_svr")
    ensures Extract(args, DatabaseKey) == Some("test_db")
    ensures Extract(args, UserKey) == Some("test_usr")
    ensures Extract(args, PasswordKey) == Some("test_pwd")
  {
    ServerValue(args);
    DatabaseValue(args);
    UserValue(args);
    PasswordValue(args);
  }

  lemma ServerValue(args: seq<string>)
    requires |args| > 0 && args[0] == "server=test_svr"
    ensures Extract(args, ServerKey) == Some("test_svr")
  {
    ExtractsValue(args, 0, ServerKey, "test_svr");
  }

  lemma DatabaseValue(args: seq<string>)
    requires |args| > 1 && args[0] == "server=test_svr" && args[1] == "database=test_db"
    ensures Extract(args, DatabaseKey) == Some("test_db")
  {
    ExtractsValue(args, 1, DatabaseKey, "test_db");
  }

  lemma UserValue(args: seq<string>)
    requires |args| > 2 && args[0] == "server=test_svr" && args[1] == "database=test_db"
    requires args[2] == "user=test_usr"
    ensures Extract(args, UserKey) == Some("test_usr")
  {
    ExtractsValue(args, 2, UserKey, "test_usr");
  }

  lemma PasswordValue(args: seq<string>)
    requires |args| > 3 && args[0] == "server=test_svr" && args[1] == "database=test_db"
    requires args[2] == "user=test_usr" && args[3] == "pwd=test_pwd"
    ensures Extract(args, PasswordKey) == Some("test_pwd")
  {
    ExtractsValue(args, 3, PasswordKey, "test_pwd");
  }

  /** The `i`-th argument is `key + v`, no earlier argument has the key's
      first character, and `v` lacks its last one: the option's value is
      `v`. */
  lemma ExtractsValue(args: seq<string>, i: nat, key: string, v: string)
    requires i < |args| && |key| > 0
    requires args[i] == key + v
    requires forall j, k :: 0 <= j < i && 0 <= k < |args[j]| ==> args[j][k] != key[0]
    requires forall k :: 0 <= k < |v| ==> v[k] != key[|key| - 1]
    ensures Extract(args, key) == Some(v)
  {
    forall j | 0 <= j < i
      ensures !Contains(args[j], key)
    {
      LacksCharacter(args[j], key, 0);
    }
    assert OccursAt(args[i], key, 0);
    ContainsIffOccurs(args[i], key);
    LacksCharacter(v, key, |key| - 1);
    RemoveAllLeadingKey(key, v);
  }
}

=== FILE: execution_results.dfy ===
/** The record every stage of the shell passes along: what ran, the rows
    it produced (row 0 is the column-name header), the per-column display
    widths and the error, if any. Unset C# properties are `None`. */
module Results {
  import opened Optional

  type Row = seq<string>

  datatype ExecutionResults = ExecutionResults(
    commandText: Option<string>,
    colCount: nat,
    rows: Option<seq<Row>>,
    padding: Option<map<int, int>>,
    errorMsg: Option<string>)

  /** `new ExecutionResults()`: every property at its default. */
  const Blank: ExecutionResults := ExecutionResults(None, 0, None, None, None)

  /** A result that carries only the statement text and an error message,
      as the `catch` blocks of the execution paths leave it. */
  function Errored(text: string, msg: string): (r: ExecutionResults)
    ensures r.errorMsg == Some(msg) && r.commandText == Some(text)
    ensures r.rows.None? && r.padding.None? && r.colCount == 0
  {
    Blank.(commandText := Some(text), errorMsg := Some(msg))
  }

  /** `RowCount`: dereferences `Rows`, so a null `Rows` is a caller error. */
  function RowCount(r: ExecutionResults): (n: nat)
    requires r.rows.Some?
    ensures n == |r.rows.value|
  {
    |r.rows.value|
  }

  /** `HasRows`: a non-null `Rows` holding at least one row. */
  predicate HasRows(r: ExecutionResults)
  {
    r.rows.Some? && exists row :: row in r.rows.value
  }

  /** `HasRows` is false for a null `Rows`, and otherwise agrees with
      `RowCount > 0`. */
  lemma HasRowsMeansRowCount(r: ExecutionResults)
    ensures r.rows.None? ==> !HasRows(r)
    ensures r.rows.Some? ==> (HasRows(r) <==> RowCount(r) > 0)
  {
    if r.rows.Some? && RowCount(r) > 0 {
      assert r.rows.value[0] in r.rows.value;
    }
  }
}

=== FILE: optional.dfy ===
/** Null and exception wrappers shared by every module of the model.

    `Option` stands for a C# reference that may be null; `Result` stands for
    a computation that either returns a value or lets an exception escape.
    An exception that escapes the modelled code is named by its .NET type;
    one that a caller catches to report its text carries that message. */
module Optional {

  /** A nullable value: `None` is C#'s `null`. */
  datatype Option<+T> = None | Some(value: T)
  {
    /** C#'s `??` operator. */
    function OrElse(fallback: T): T
    {
      match this
      case Some(v) => v
      case None => fallback
    }
  }

  /** Either the value a call returned, or the exception it let escape. */
  datatype Result<+T> = Success(value: T) | Failure(exception: string)

  /** .NET exception types the modelled code can let escape. */
  const ArgumentNullException: string := "System.ArgumentNullException"
  const ArgumentOutOfRangeException: string := "System.ArgumentOutOfRangeException"
  const IndexOutOfRangeException: string := "System.IndexOutOfRangeException"
  const NullReferenceException: string := "System.NullReferenceException"
}

=== FILE: sql_engine.dfy ===
/** The execution guard, the dispatcher and the shaping of query results.

    The database is an oracle: for a statement text it either throws or
    opens a cursor (the reader path), and either throws or succeeds (the
    non-query path). Which path ran is recorded in the result, and the
    lemmas below show that a path that does not run cannot influence it. */
module SqlEngine {
  import opened Optional
  import opened ClrString
  import opened Results

  /** The fixed advisory returned when a read-only session meets a write. */
  const ReadOnlyAdvisory: string :=
    "This session can only execute SELECT queries. "
    + "Start another session using the '-rw' flag "
    + "if DDL statements are to be executed."

  /** The upper-case markers that classify a statement as a write. */
  const WriteMarkers: seq<string> :=
    ["INSERT ", "UPDATE ", "DELETE ", "CREATE ", "ALTER ", "DROP "]

  /** The marker that routes a statement to the reader path. */
  const SelectMarker: string := "SELECT "

  /** How a null cell is shown. */
  const NullToken: string := "<null>"

  /** The message of the `InvalidOperationException` that `Enumerable.Max`
      throws on an empty sequence. */
  const EmptySequenceMessage: string := "Sequence contains no elements"

  /** The message of the `ArgumentOutOfRangeException` that
      `String.Substring` throws when the start lies past the end, with the
      parameter name that `ArgumentException.Message` appends on .NET Core
      3.0 and later. */
  const SubstringMessage: string :=
    "startIndex cannot be larger than length of string." + " (Parameter 'startIndex')"

  /** A forward-only cursor, already drained: the column names (so
      `FieldCount` is their number), the `HasRows` flag, the records
      `Read` delivers (null cells are `None`), and the failure, if any,
      raised by the `Read` after the last record. */
  datatype CursorData = CursorData(
    names: seq<string>,
    hasRows: bool,
    records: seq<seq<Option<string>>>,
    readError: Option<string>)

  /** The driver hands out one value per column in every record. */
  type Cursor = c: CursorData | forall i :: 0 <= i < |c.records| ==> |c.records[i]| == |c.names|
    witness CursorData([], false, [], None)

  datatype ReaderOutcome = ReaderThrew(message: string) | Opened(cursor: Cursor)

  datatype NonQueryOutcome = Executed | NonQueryThrew(message: string)

  /** The database oracle: what `ExecuteReader` and `ExecuteNonQuery` of
      the driver do with a statement text. */
  datatype Driver = Driver(query: string -> ReaderOutcome, run: string -> NonQueryOutcome)

  /** Which execution path `ExecuteCommand` took. */
  datatype Path = Refused | ReaderPath | NonQueryPath

  /** What `ExecuteCommand` hands back: the result, the path taken, and the
      database name a successful `USE` statement switched to (the
      `DbChanged` notification, returned as a value). */
  datatype Dispatched = Dispatched(results: ExecutionResults, path: Path, dbChanged: Option<string>)

  // ---------------------------------------------------------------------
  // Classification

  /** `requiresWrite`: the upper-cased text contains one of the markers. */
  predicate RequiresWrite(sql: string)
  {
    var cmdTxt := ToUpper(sql);
    || Contains(cmdTxt, "INSERT ")
    || Contains(cmdTxt, "UPDATE ")
    || Contains(cmdTxt, "DELETE ")
    || Contains(cmdTxt, "CREATE ")
    || Contains(cmdTxt, "ALTER ")
    || Contains(cmdTxt, "DROP ")
  }

  /** Write classification is membership of some marker, each with its
      trailing space, at some position of the upper-cased text. */
  lemma RequiresWriteIffMarker(sql: string)
    ensures RequiresWrite(sql) <==>
      exists m, i :: m in WriteMarkers && OccursAt(ToUpper(sql), m, i)
  {
    var u := ToUpper(sql);
    forall m | m in WriteMarkers
      ensures Contains(u, m) <==> exists i :: OccursAt(u, m, i)
    {
      ContainsIffOccurs(u, m);
    }
    assert RequiresWrite(sql) <==> exists m :: m in WriteMarkers && Contains(u, m);
  }

  /** The text goes to the reader path. */
  predicate IsQuery(sql: string)
  {
    Contains(ToUpper(sql), SelectMarker)
  }

  // ---------------------------------------------------------------------
  // Reading a cursor

  /** `value != null ? value.ToString() : "<null>"`. */
  function RenderCell(v: Option<string>): string
  {
    match v
    case Some(s) => s
    case None => NullToken
  }

  /** One record of the cursor as display strings. */
  function RenderRecord(cells: seq<Option<string>>): (row: Row)
    ensures |row| == |cells|
    ensures forall j :: 0 <= j < |cells| ==> row[j] == RenderCell(cells[j])
  {
    seq(|cells|, j requires 0 <= j < |cells| => RenderCell(cells[j]))
  }

  /** The `while (reader.Read())` loop: one row per record, in order. */
  function RenderRecords(records: seq<seq<Option<string>>>): (rows: seq<Row>)
    ensures |rows| == |records|
    ensures forall i :: 0 <= i < |records| ==> rows[i] == RenderRecord(records[i])
    decreases |records|
  {
    if |records| == 0 then []
    else [RenderRecord(records[0])] + RenderRecords(records[1..])
  }

  /** `ReadRawResults`: no header at all when the cursor has no rows;
      otherwise the column names, then one row per record with null cells
      shown as `<null>`. A failing `Read` loses every row. */
  function ReadRawResults(c: Cursor): (r: Result<ExecutionResults>)
    ensures !c.hasRows ==> r == Success(Blank.(colCount := |c.names|, rows := Some([])))
    ensures c.hasRows ==> (r.Failure? <==> c.readError.Some?)
    ensures r.Failure? ==> r.exception == c.readError.value
    ensures r.Success? ==>
      && r.value.colCount == |c.names|
      && r.value.rows.Some?
      && r.value.padding.None? && r.value.errorMsg.None? && r.value.commandText.None?
      && (forall k :: 0 <= k < |r.value.rows.value| ==> |r.value.rows.value[k]| == r.value.colCount)
    ensures r.Success? && c.hasRows ==>
      var rows := r.value.rows.value;
      && |rows| == |c.records| + 1
      && rows[0] == c.names
      && (forall i, j :: 0 <= i < |c.records| && 0 <= j < |c.names| ==>
            rows[i + 1][j] == (if c.records[i][j].None? then NullToken else c.records[i][j].value))
  {
    if !c.hasRows then
      Success(Blank.(colCount := |c.names|, rows := Some([])))
    else if c.readError.Some? then
      Failure(c.readError.value)
    else
      Success(Blank.(colCount := |c.names|, rows := Some([c.names] + RenderRecords(c.records))))
  }

  // ---------------------------------------------------------------------
  // Padding and formatting

  /** Every row has a value for each of the first `n` columns. */
  predicate Covers(rows: seq<Row>, n: int)
  {
    forall k :: 0 <= k < |rows| ==> |rows[k]| >= n
  }

  /** The keys of `pad` are exactly the column indices below `n`. */
  predicate IndexedBy(pad: map<int, int>, n: int)
  {
    && (forall i :: i in pad ==> 0 <= i < n)
    && (forall i :: 0 <= i < n ==> i in pad)
  }

  /** `w` is two more than the longest value in column `i`. */
  predicate IsColumnWidth(rows: seq<Row>, i: nat, w: int)
    requires Covers(rows, i + 1)
  {
    && (forall k :: 0 <= k < |rows| ==> |rows[k][i]| + 2 <= w)
    && (exists k :: 0 <= k < |rows| && |rows[k][i]| + 2 == w)
  }

  /** `cell` is `raw` right-padded with spaces to exactly `width` characters. */
  predicate IsPaddedCell(raw: string, cell: string, width: int)
  {
    && |cell| == width
    && raw <= cell
    && forall j :: |raw| <= j < |cell| ==> cell[j] == ' '
  }

  /** The longest value in column `i`, the `Max` of `calculatePadding`. */
  function MaxLength(rows: seq<Row>, i: nat): (m: nat)
    requires |rows| > 0 && Covers(rows, i + 1)
    ensures forall k :: 0 <= k < |rows| ==> |rows[k][i]| <= m
    ensures exists k :: 0 <= k < |rows| && |rows[k][i]| == m
    decreases |rows|
  {
    if |rows| == 1 then |rows[0][i]|
    else
      var rest := MaxLength(rows[1..], i);
      assert forall k :: 1 <= k < |rows| ==> rows[k] == rows[1..][k - 1];
      if |rows[0][i]| >= rest then |rows[0][i]| else rest
  }

  /** `calculatePadding`: one entry per column index. */
  function ColumnPadding(rows: seq<Row>, n: nat): (pad: map<int, int>)
    requires |rows| > 0 && Covers(rows, n)
    ensures IndexedBy(pad, n)
    ensures forall i :: 0 <= i < n ==> pad[i] >= 2
    ensures forall i :: 0 <= i < n ==> IsColumnWidth(rows, i, pad[i])
  {
    map i | 0 <= i < n :: MaxLength(rows, i) + 2
  }

  /** The formatting loop: each of the first `n` values of every row
      right-padded to the width its column has in `pad`. */
  function PadRows(rows: seq<Row>, pad: map<int, int>, n: nat): (out: seq<Row>)
    requires Covers(rows, n)
    requires forall i :: 0 <= i < n ==> i in pad && pad[i] >= 0
    ensures |out| == |rows|
    ensures forall k :: 0 <= k < |rows| ==> |out[k]| == n
    ensures forall k, f :: 0 <= k < |rows| && 0 <= f < n ==>
      IsPaddedCell(rows[k][f], out[k][f], pad[f]) || (|rows[k][f]| > pad[f] && out[k][f] == rows[k][f])
  {
    seq(|rows|, k requires 0 <= k < |rows| =>
      seq(n, f requires 0 <= f < n => PadRight(rows[k][f], pad[f], ' ')))
  }

  /** `out` is `rows` formatted over `n` columns: each column's width is
      two more than its longest value, header included; every value is
      right-padded with spaces to that width; the statement text is not
      carried over. */
  predicate IsFormatted(rows: seq<Row>, n: nat, out: ExecutionResults)
    requires Covers(rows, n)
  {
    && out.colCount == n
    && out.commandText.None? && out.errorMsg.None?
    && out.rows.Some? && out.padding.Some?
    && IndexedBy(out.padding.value, n)
    && (forall i :: 0 <= i < n ==> IsColumnWidth(rows, i, out.padding.value[i]))
    && |out.rows.value| == |rows|
    && (forall k :: 0 <= k < |rows| ==> |out.rows.value[k]| == n)
    && (forall k, f :: 0 <= k < |rows| && 0 <= f < n ==>
          IsPaddedCell(rows[k][f], out.rows.value[k][f], out.padding.value[f]))
  }

  /** `FormatQueryResult`. With no rows and at least one column the `Max`
      of `calculatePadding` throws; otherwise the rows come back
      formatted. */
  function FormatQueryResult(raw: ExecutionResults): (r: Result<ExecutionResults>)
    requires raw.rows.Some? && Covers(raw.rows.value, raw.colCount)
    ensures r.Failure? <==> |raw.rows.value| == 0 && raw.colCount > 0
    ensures r.Failure? ==> r.exception == EmptySequenceMessage
    ensures r.Success? ==> IsFormatted(raw.rows.value, raw.colCount, r.value)
  {
    var n := raw.colCount;
    var rows := raw.rows.value;
    if |rows| == 0 && n > 0 then
      Failure(EmptySequenceMessage)
    else if |rows| == 0 then
      Success(Blank.(rows := Some([]), padding := Some(map[])))
    else
      Success(Formatted(rows, n))
  }

  /** `calculatePadding` followed by the padding loop, for at least one row. */
  function Formatted(rows: seq<Row>, n: nat): (out: ExecutionResults)
    requires |rows| > 0 && Covers(rows, n)
    ensures IsFormatted(rows, n, out)
  {
    var pad := ColumnPadding(rows, n);
    PadRowsToWidths(rows, pad, n);
    ExecutionResults(None, n, Some(PadRows(rows, pad, n)), Some(pad), None)
  }

  /** With widths no smaller than any value, every cell is padded to
      exactly its column's width. */
  lemma PadRowsToWidths(rows: seq<Row>, pad: map<int, int>, n: nat)
    requires Covers(rows, n) && IndexedBy(pad, n)
    requires forall i :: 0 <= i < n ==> pad[i] >= 2
    requires forall i :: 0 <= i < n ==> IsColumnWidth(rows, i, pad[i])
    ensures forall k, f :: 0 <= k < |rows| && 0 <= f < n ==>
      IsPaddedCell(rows[k][f], PadRows(rows, pad, n)[k][f], pad[f])
  {
    var out := PadRows(rows, pad, n);
    forall k, f | 0 <= k < |rows| && 0 <= f < n
      ensures IsPaddedCell(rows[k][f], out[k][f], pad[f])
    {
      assert |rows[k][f]| + 2 <= pad[f];
    }
  }

  /** Formatting lines the columns up: all values of a column end up the
      same length. */
  lemma FormattedColumnsAligned(raw: ExecutionResults, k1: nat, k2: nat, f: nat)
    requires raw.rows.Some? && Covers(raw.rows.value, raw.colCount)
    requires FormatQueryResult(raw).Success?
    requires k1 < |raw.rows.value| && k2 < |raw.rows.value| && f < raw.colCount
    ensures var out := FormatQueryResult(raw).value.rows.value;
      |out[k1][f]| == |out[k2][f]|
  {
  }

  /** Formatting is not idempotent: formatting a formatted result widens
      every column by two more characters. */
  lemma {:induction false} ReformatWidensByTwo(raw: ExecutionResults, f: nat)
    requires raw.rows.Some? && Covers(raw.rows.value, raw.colCount)
    requires |raw.rows.value| > 0 && f < raw.colCount
    ensures var once := FormatQueryResult(raw).value;
      && Covers(once.rows.value, once.colCount)
      && FormatQueryResult(once).Success?
      && FormatQueryResult(once).value.padding.value[f] == once.padding.value[f] + 2
  {
    var once := Formatted(raw.rows.value, raw.colCount);
    FormattedColumnWidth(raw.rows.value, raw.colCount, f);
    UniformColumn(once.rows.value, f, once.padding.value[f]);
  }

  /** Every formatted value of column `f` is exactly the column's width. */
  lemma FormattedColumnWidth(rows: seq<Row>, n: nat, f: nat)
    requires |rows| > 0 && Covers(rows, n) && f < n
    ensures var out := Formatted(rows, n);
      && Covers(out.rows.value, f + 1)
      && forall k :: 0 <= k < |rows| ==> |out.rows.value[k][f]| == out.padding.value[f]
  {
    var out := Formatted(rows, n);
    forall k | 0 <= k < |rows|
      ensures |out.rows.value[k][f]| == out.padding.value[f]
    {
      assert IsPaddedCell(rows[k][f], out.rows.value[k][f], out.padding.value[f]);
    }
  }

  /** The worked example: header `a | bb` over the row `1 | 22` gives the
      widths 3 and 4. */
  lemma PaddingExample()
    ensures var raw := Blank.(colCount := 2, rows := Some([["a", "bb"], ["1", "22"]]));
      FormatQueryResult(raw) == Success(ExecutionResults(None, 2,
        Some(PadRows(raw.rows.value, map[0 := 3, 1 := 4], 2)), Some(map[0 := 3, 1 := 4]), None))
  {
    ExampleWidths([["a", "bb"], ["1", "22"]]);
  }

  /** Two columns whose values are one and two characters long get the
      widths 3 and 4. */
  lemma ExampleWidths(rows: seq<Row>)
    requires |rows| > 0 && Covers(rows, 2)
    requires forall k :: 0 <= k < |rows| ==> |rows[k][0]| == 1 && |rows[k][1]| == 2
    ensures ColumnPadding(rows, 2) == map[0 := 3, 1 := 4]
  {
    UniformColumn(rows, 0, 1);
    UniformColumn(rows, 1, 2);
    TwoColumnWidths(ColumnPadding(rows, 2), 3, 4);
  }

  /** Padding keyed by the two column indices is the map of its two widths. */
  lemma TwoColumnWidths(pad: map<int, int>, w0: int, w1: int)
    requires IndexedBy(pad, 2) && pad[0] == w0 && pad[1] == w1
    ensures pad == map[0 := w0, 1 := w1]
  {
    assert forall i :: i in pad <==> i == 0 || i == 1;
  }

  /** A column whose values all have the same length has that length as
      its longest value. */
  lemma UniformColumn(rows: seq<Row>, i: nat, len: nat)
    requires |rows| > 0 && Covers(rows, i + 1)
    requires forall k :: 0 <= k < |rows| ==> |rows[k][i]| == len
    ensures MaxLength(rows, i) == len
  {
  }

  // ---------------------------------------------------------------------
  // Execution paths

  /** `ExecuteReader`: the formatted rows on success, which drop the
      statement text; on any failure of the driver, of reading or of
      formatting, the statement text and the message and nothing else:
      the driver's message, the message of the failing `Read`, or the
      empty-sequence message of `Max` when no rows came back. */
  function ExecuteReader(text: string, answer: ReaderOutcome): (r: ExecutionResults)
    ensures r.errorMsg.Some? ==> r == Errored(text, r.errorMsg.value)
    ensures answer.ReaderThrew? ==> r == Errored(text, answer.message)
    ensures answer.Opened? && answer.cursor.hasRows && answer.cursor.readError.Some? ==>
      r == Errored(text, answer.cursor.readError.value)
    ensures answer.Opened? && !answer.cursor.hasRows && |answer.cursor.names| > 0 ==>
      r == Errored(text, EmptySequenceMessage)
    ensures answer.Opened? && r.errorMsg.Some? ==>
      || (answer.cursor.hasRows && answer.cursor.readError.Some?)
      || (!answer.cursor.hasRows && |answer.cursor.names| > 0)
    ensures r.errorMsg.None? ==> r.commandText.None? && r.rows.Some? && r.padding.Some?
    ensures r.errorMsg.None? ==>
      && answer.Opened?
      && ReadRawResults(answer.cursor).Success?
      && FormatQueryResult(ReadRawResults(answer.cursor).value) == Success(r)
  {
    match answer
    case ReaderThrew(m) => Errored(text, m)
    case Opened(c) =>
      match ReadRawResults(c)
      case Failure(m) => Errored(text, m)
      case Success(raw) =>
        match FormatQueryResult(raw)
        case Failure(m) => Errored(text, m)
        case Success(formatted) => formatted
  }

  /** What `ExecuteNonQuery` returns: the result and the database a `USE`
      statement switched to. */
  datatype NonQueryDone = NonQueryDone(results: ExecutionResults, dbChanged: Option<string>)

  /** The statement starts with `USE` in any letter case. */
  predicate StartsWithUse(text: string)
    requires |text| >= 3
  {
    ToUpper(text[..3]) == "USE"
  }

  /** `ExecuteNonQuery`: reading the three-character prefix happens outside
      the `try`, so a shorter text lets the exception escape. Otherwise the
      result carries the statement text, plus the driver's message on
      failure; a successful `USE` names the new database: the text from
      its fifth character on, with every `;` removed. A bare `USE` that
      the driver accepts fails at that `Substring` instead. */
  function ExecuteNonQuery(text: string, answer: NonQueryOutcome): (r: Result<NonQueryDone>)
    ensures r.Failure? <==> |text| < 3
    ensures r.Failure? ==> r.exception == ArgumentOutOfRangeException
    ensures r.Success? ==>
      && r.value.results.commandText == Some(text)
      && r.value.results.rows.None? && r.value.results.padding.None?
    ensures r.Success? && answer.NonQueryThrew? ==>
      r.value == NonQueryDone(Errored(text, answer.message), None)
    ensures r.Success? ==>
      (r.value.dbChanged.Some? <==> answer.Executed? && StartsWithUse(text) && |text| >= 4)
    ensures r.Success? && r.value.dbChanged.Some? ==>
      r.value.dbChanged.value == RemoveAll(text[4..], ";") && r.value.results.errorMsg.None?
    ensures r.Success? && r.value.results.errorMsg.None? ==> answer.Executed?
    ensures r.Success? && answer.Executed? && StartsWithUse(text) && |text| == 3 ==>
      r.value == NonQueryDone(Errored(text, SubstringMessage), None)
    ensures r.Success? && answer.Executed? && !(StartsWithUse(text) && |text| == 3) ==>
      r.value.results == Blank.(commandText := Some(text))
  {
    if |text| < 3 then Failure(ArgumentOutOfRangeException)
    else
      var hasUsingStmt := StartsWithUse(text);
      var results := Blank.(commandText := Some(text));
      match answer
      case NonQueryThrew(m) => Success(NonQueryDone(Errored(text, m), None))
      case Executed =>
        if !hasUsingStmt then Success(NonQueryDone(results, None))
        else if |text| < 4 then Success(NonQueryDone(Errored(text, SubstringMessage), None))
        else Success(NonQueryDone(results, Some(RemoveAll(text[4..], ";"))))
  }

  // ---------------------------------------------------------------------
  // Guard and dispatch

  /** `ExecuteCommand`: in a read-only session a write-classified text is
      refused with the advisory alone; otherwise `SELECT ` selects the
      reader path and everything else the non-query path. Failures of
      either path become an error message; only the short-text exception
      of the non-query path escapes. */
  function ExecuteCommand(sql: string, readOnly: bool, driver: Driver): (r: Result<Dispatched>)
    ensures r.Failure? <==> !(RequiresWrite(sql) && readOnly) && !IsQuery(sql) && |sql| < 3
    ensures r.Failure? ==> r.exception == ArgumentOutOfRangeException
    ensures r.Success? ==> (r.value.path == Refused <==> RequiresWrite(sql) && readOnly)
    ensures r.Success? ==>
      (r.value.path == ReaderPath <==> !(RequiresWrite(sql) && readOnly) && IsQuery(sql))
    ensures r.Success? && r.value.path == Refused ==>
      r.value.results == Blank.(errorMsg := Some(ReadOnlyAdvisory)) && r.value.dbChanged.None?
    ensures r.Success? && r.value.path == ReaderPath ==>
      r.value.results == ExecuteReader(sql, driver.query(sql)) && r.value.dbChanged.None?
    ensures r.Success? && r.value.path == NonQueryPath ==>
      r.value == Dispatched(ExecuteNonQuery(sql, driver.run(sql)).value.results, NonQueryPath,
        ExecuteNonQuery(sql, driver.run(sql)).value.dbChanged)
    ensures r.Success? && r.value.results.errorMsg.Some? ==> r.value.results.rows.None?
  {
    if RequiresWrite(sql) && readOnly then
      Success(Dispatched(Blank.(errorMsg := Some(ReadOnlyAdvisory)), Refused, None))
    else if IsQuery(sql) then
      Success(Dispatched(ExecuteReader(sql, driver.query(sql)), ReaderPath, None))
    else
      match ExecuteNonQuery(sql, driver.run(sql))
      case Failure(e) => Failure(e)
      case Success(done) => Success(Dispatched(done.results, NonQueryPath, done.dbChanged))
  }

  /** A refused statement never reaches the database: the outcome is the
      same whatever the driver would have done. */
  lemma RefusalIgnoresDriver(sql: string, d1: Driver, d2: Driver)
    requires RequiresWrite(sql)
    ensures ExecuteCommand(sql, true, d1) == ExecuteCommand(sql, true, d2)
    ensures ExecuteCommand(sql, true, d1).Success?
    ensures ExecuteCommand(sql, true, d1).value.path == Refused
  {
  }

  /** On the reader path the driver's non-query operation is never used. */
  lemma ReaderPathIgnoresNonQuery(sql: string, readOnly: bool, query: string -> ReaderOutcome,
                                  run1: string -> NonQueryOutcome, run2: string -> NonQueryOutcome)
    requires !(RequiresWrite(sql) && readOnly) && IsQuery(sql)
    ensures ExecuteCommand(sql, readOnly, Driver(query, run1)) == ExecuteCommand(sql, readOnly, Driver(query, run2))
  {
  }

  /** On the non-query path the driver's reader operation is never used. */
  lemma NonQueryPathIgnoresReader(sql: string, readOnly: bool, run: string -> NonQueryOutcome,
                                  query1: string -> ReaderOutcome, query2: string -> ReaderOutcome)
    requires !(RequiresWrite(sql) && readOnly) && !IsQuery(sql)
    ensures ExecuteCommand(sql, readOnly, Driver(query1, run)) == ExecuteCommand(sql, readOnly, Driver(query2, run))
  {
  }

  /** A read-write session never refuses. */
  lemma ReadWriteNeverRefuses(sql: string, d: Driver)
    ensures ExecuteCommand(sql, false, d).Success? ==> ExecuteCommand(sql, false, d).value.path != Refused
  {
  }

  /** `DELETE FROM t` in a read-only session is refused with the advisory. */
  lemma DeleteRefusedExample(d: Driver)
    ensures ExecuteCommand("DELETE FROM t", true, d)
      == Success(Dispatched(Blank.(errorMsg := Some(ReadOnlyAdvisory)), Refused, None))
  {
    var u := ToUpper("DELETE FROM t");
    assert u[..7] == "DELETE ";
    assert Contains(u, "DELETE ");
  }

  /** A query that returns no rows over at least one column is reported as
      an error: the empty header-less row list makes `Max` throw. */
  lemma EmptyQueryReportsError(text: string, c: Cursor)
    requires !c.hasRows && |c.names| > 0
    ensures ExecuteReader(text, Opened(c)) == Errored(text, EmptySequenceMessage)
  {
  }
}

=== FILE: terminal.dfy ===
/** `Terminal.Print` and its helpers as a pure function from a result to
    the writes made to the console: each `Console.Write` is one segment,
    carrying the foreground colour in force when it was made. An exception
    that escapes part-way leaves the writes made before it in the output.

    `double.TryParse` and `DateTime.TryParse` depend on the current
    culture and are parameters; `bool.TryParse` does not and is modelled.
    `WriteLine` ends a line with "\n". The source reads `ErrorMessage`
    and `ColumnCount`, which are taken to be `ErrorMsg` and `ColCount`. */
module Terminal {
  import opened Optional
  import opened ClrString
  import opened Results
  import opened SqlEngine

  datatype Color = Red | White | Magenta | DarkRed | Green | Cyan | DarkYellow

  /** One `Console.Write`: the text and the foreground colour. */
  datatype Segment = Segment(text: string, color: Color)

  /** The writes made, and the exception that escaped, if any. */
  datatype Printed = Printed(output: seq<Segment>, escaped: Option<string>)

  /** The culture-dependent parsers `GetDataTypeForecolor` consults. */
  datatype Parsers = Parsers(isDouble: string -> bool, isDateTime: string -> bool)

  const Separator: Segment := Segment("|", White)

  /** What the console shows: the texts of the writes, in order. */
  function Text(out: seq<Segment>): string
    decreases |out|
  {
    if |out| == 0 then "" else out[0].text + Text(out[1..])
  }

  lemma {:induction false} TextAppend(a: seq<Segment>, b: seq<Segment>)
    ensures Text(a + b) == Text(a) + Text(b)
    decreases |a|
  {
    if |a| > 0 {
      assert (a + b)[1..] == a[1..] + b;
      TextAppend(a[1..], b);
    } else {
      assert a + b == b;
    }
  }

  // ---------------------------------------------------------------------
  // Colours

  /** The characters `bool.TryParse` strips before its second attempt. */
  predicate IsBoolPad(c: char)
  {
    IsWhiteSpace(c) || c == '\0'
  }

  /** Strips white space and NUL characters from both ends. */
  function StripBoolPad(s: string): (r: string)
    ensures |r| <= |s|
    ensures |r| > 0 ==> !IsBoolPad(r[0]) && !IsBoolPad(r[|r| - 1])
    ensures |s| > 0 && !IsBoolPad(s[0]) && !IsBoolPad(s[|s| - 1]) ==> r == s
    decreases |s|
  {
    if |s| > 0 && IsBoolPad(s[0]) then StripBoolPad(s[1..])
    else if |s| > 0 && IsBoolPad(s[|s| - 1]) then StripBoolPad(s[..|s| - 1])
    else s
  }

  /** `bool.TryParse` succeeds: `True` or `False` in any letter case, once
      white space and NUL characters are stripped from both ends. */
  predicate IsBooleanText(s: string)
  {
    var t := ToUpper(StripBoolPad(s));
    t == "TRUE" || t == "FALSE"
  }

  /** `GetDataTypeForecolor`: numbers, then booleans, then dates, each in
      their own colour; anything else in dark yellow. */
  function DataTypeColor(val: string, p: Parsers): (c: Color)
    ensures c == DarkRed <==> p.isDouble(val)
    ensures c == Green <==> !p.isDouble(val) && IsBooleanText(val)
    ensures c == Cyan <==> !p.isDouble(val) && !IsBooleanText(val) && p.isDateTime(val)
    ensures c == DarkYellow <==> !p.isDouble(val) && !IsBooleanText(val) && !p.isDateTime(val)
  {
    if p.isDouble(val) then DarkRed
    else if IsBooleanText(val) then Green
    else if p.isDateTime(val) then Cyan
    else DarkYellow
  }

  /** A boolean's text is shown in green whatever white space or NUL
      characters surround it, unless the number parser claims it first. */
  lemma PaddedBooleanIsGreen(p: Parsers, left: string, word: string, right: string)
    requires word == "True" || word == "false"
    requires forall i :: 0 <= i < |left| ==> IsBoolPad(left[i])
    requires forall i :: 0 <= i < |right| ==> IsBoolPad(right[i])
    requires !p.isDouble(left + word + right)
    ensures DataTypeColor(left + word + right, p) == Green
  {
    BooleanWord(word);
    StripsPadding(left, word, right);
  }

  /** `True` and `false` are not padded and upper-case to a boolean. */
  lemma BooleanWord(word: string)
    requires word == "True" || word == "false"
    ensures |word| > 0 && !IsBoolPad(word[0]) && !IsBoolPad(word[|word| - 1])
    ensures ToUpper(word) == "TRUE" || ToUpper(word) == "FALSE"
  {
    if word == "True" {
      assert ToUpper(word) == "TRUE";
    } else {
      assert ToUpper(word) == "FALSE";
    }
  }

  /** Stripping removes exactly the padding around a word that neither
      starts nor ends with padding. */
  lemma {:induction false} StripsPadding(left: string, word: string, right: string)
    requires forall i :: 0 <= i < |left| ==> IsBoolPad(left[i])
    requires forall i :: 0 <= i < |right| ==> IsBoolPad(right[i])
    requires |word| > 0 && !IsBoolPad(word[0]) && !IsBoolPad(word[|word| - 1])
    ensures StripBoolPad(left + word + right) == word
    decreases |left|
  {
    var s := left + word + right;
    if |left| > 0 {
      assert s[0] == left[0];
      assert s[1..] == left[1..] + word + right;
      StripsPadding(left[1..], word, right);
    } else {
      assert s == word + right;
      StripsRight(word, right);
    }
  }

  /** Trailing padding alone is stripped. */
  lemma {:induction false} StripsRight(word: string, right: string)
    requires forall i :: 0 <= i < |right| ==> IsBoolPad(right[i])
    requires |word| > 0 && !IsBoolPad(word[0]) && !IsBoolPad(word[|word| - 1])
    ensures StripBoolPad(word + right) == word
    decreases |right|
  {
    var s := word + right;
    assert s[0] == word[0];
    if |right| > 0 {
      assert s[|s| - 1] == right[|right| - 1];
      assert s[..|s| - 1] == word + right[..|right| - 1];
      StripsRight(word, right[..|right| - 1]);
    } else {
      assert s == word;
    }
  }

  /** A null cell shows as `<null>`, which is not a boolean: it is dark
      yellow unless a culture parser accepts it. */
  lemma NullTokenColor(p: Parsers)
    requires !p.isDouble(NullToken) && !p.isDateTime(NullToken)
    ensures DataTypeColor(NullToken, p) == DarkYellow
  {
    var s := NullToken;
    assert !IsBoolPad(s[0]) && !IsBoolPad(s[|s| - 1]);
    assert ToUpper(s)[0] == '<';
  }

  // ---------------------------------------------------------------------
  // Writing the cells of a row

  /** The `for (c = 1; c < n; c++)` part of a row: a white `|`, then the
      value in its colour; `values[c]` throws once it runs out, after the
      `|` is written. */
  function WriteRest(values: seq<string>, n: nat, paint: string -> Color): (w: Printed)
    ensures w.escaped.Some? <==> |values| < n
    ensures w.escaped.Some? ==> w.escaped.value == ArgumentOutOfRangeException
    ensures |w.output| == if w.escaped.Some? then 2 * |values| + 1 else 2 * n
    ensures forall j :: 0 <= j < |w.output| ==>
      w.output[j] == if j % 2 == 0 then Separator else Segment(values[j / 2], paint(values[j / 2]))
    decreases n
  {
    if n == 0 then Printed([], None)
    else if |values| == 0 then Printed([Separator], Some(ArgumentOutOfRangeException))
    else
      var rest := WriteRest(values[1..], n - 1, paint);
      var out := [Separator, Segment(values[0], paint(values[0]))] + rest.output;
      assert forall j :: 2 <= j < |out| ==> out[j] == rest.output[j - 2];
      Printed(out, rest.escaped)
  }

  /** The cells of one row: `lead` is written together with the first
      value, then a white `|` before each further value, each value in
      the colour `paint` gives it. Indexing past the row throws, after
      the writes already made. */
  function WriteCells(values: seq<string>, n: nat, lead: string, paint: string -> Color): (w: Printed)
    ensures w.escaped.Some? <==> |values| < n
    ensures w.escaped.Some? ==> w.escaped.value == ArgumentOutOfRangeException
    ensures |w.output| == if w.escaped.Some? then 2 * |values| else if n == 0 then 0 else 2 * n - 1
    ensures |w.output| > 0 ==> w.output[0] == Segment(lead + values[0], paint(values[0]))
    ensures forall j :: 0 < j < |w.output| ==>
      w.output[j] == if j % 2 == 1 then Separator else Segment(values[j / 2], paint(values[j / 2]))
  {
    if n == 0 then Printed([], None)
    else if |values| == 0 then Printed([], Some(ArgumentOutOfRangeException))
    else
      var rest := WriteRest(values[1..], n - 1, paint);
      var out := [Segment(lead + values[0], paint(values[0]))] + rest.output;
      assert forall j :: 1 <= j < |out| ==> out[j] == rest.output[j - 1];
      Printed(out, rest.escaped)
  }

  /** The text of the rest of a row is `|` before each value. */
  lemma {:induction false} RestText(values: seq<string>, n: nat, paint: string -> Color)
    requires |values| >= n
    ensures Text(WriteRest(values, n, paint).output) == if n == 0 then "" else "|" + Join(values[..n], "|")
    decreases n
  {
    if n > 0 {
      var rest := WriteRest(values[1..], n - 1, paint);
      RestText(values[1..], n - 1, paint);
      var head := [Separator, Segment(values[0], paint(values[0]))];
      TextAppend(head, rest.output);
      assert Text(head) == "|" + values[0] by {
        assert head[1..][1..] == [];
      }
      assert values[..n][1..] == values[1..][..n - 1];
    }
  }

  /** What a row of cells shows is `String.Join("|", …)` of its values. */
  lemma CellsText(values: seq<string>, n: nat, lead: string, paint: string -> Color)
    requires |values| >= n
    ensures Text(WriteCells(values, n, lead, paint).output)
      == if n == 0 then "" else lead + Join(values[..n], "|")
  {
    if n > 0 {
      var rest := WriteRest(values[1..], n - 1, paint);
      RestText(values[1..], n - 1, paint);
      TextAppend([Segment(lead + values[0], paint(values[0]))], rest.output);
      assert values[..n][1..] == values[1..][..n - 1];
    }
  }

  // ---------------------------------------------------------------------
  // The horizontal rule

  /** The smallest key of a non-empty set. */
  function MinKey(s: set<int>): (k: int)
    requires s != {}
    ensures k in s && forall j :: j in s ==> k <= j
  {
    MinExists(s);
    var k :| k in s && forall j :: j in s ==> k <= j;
    k
  }

  lemma MinExists(s: set<int>)
    requires s != {}
    ensures exists k :: k in s && forall j :: j in s ==> k <= j
    decreases s
  {
    assert (forall x :: x !in s) ==> s == {};
    var x :| x in s;
    var rest := s - {x};
    if rest == {} {
      assert s == {x};
    } else {
      MinExists(rest);
      var m :| m in rest && forall j :: j in rest ==> m <= j;
      var least := if x < m then x else m;
      forall j | j in s
        ensures least <= j
      {
        if j != x {
          assert j in rest;
        }
      }
    }
  }

  /** `Padding.Values.Sum()`, adding the values in key order. */
  function SumValues(m: map<int, int>): int
    decreases m.Keys
  {
    if m.Keys == {} then 0
    else
      var k := MinKey(m.Keys);
      assert (m - {k}).Keys < m.Keys;
      m[k] + SumValues(m - {k})
  }

  /** The sum of `m[lo]`, …, `m[hi - 1]`. */
  function SumRange(m: map<int, int>, lo: int, hi: int): int
    requires forall i :: lo <= i < hi ==> i in m
    decreases hi - lo
  {
    if lo >= hi then 0 else m[lo] + SumRange(m, lo + 1, hi)
  }

  lemma {:induction false} SumRangeAgrees(m: map<int, int>, m2: map<int, int>, lo: int, hi: int)
    requires forall i :: lo <= i < hi ==> i in m && i in m2 && m[i] == m2[i]
    ensures SumRange(m, lo, hi) == SumRange(m2, lo, hi)
    decreases hi - lo
  {
    if lo < hi {
      SumRangeAgrees(m, m2, lo + 1, hi);
    }
  }

  /** For a map keyed by exactly `lo`, …, `hi - 1` the sum of its values is
      the sum over that range. */
  lemma {:induction false} SumValuesOverRange(m: map<int, int>, lo: int, hi: int)
    requires forall i :: i in m <==> lo <= i < hi
    ensures SumValues(m) == SumRange(m, lo, hi)
    decreases hi - lo
  {
    if lo < hi {
      assert lo in m.Keys;
      var k := MinKey(m.Keys);
      assert k == lo;
      var rest := m - {lo};
      SumValuesOverRange(rest, lo + 1, hi);
      SumRangeAgrees(rest, m, lo + 1, hi);
    } else {
      assert forall i :: i !in m.Keys;
      assert m.Keys == {};
    }
  }

  /** The sum over a range of non-negative values is at least twice its
      length when every value is at least two. */
  lemma {:induction false} SumRangeAtLeast(m: map<int, int>, lo: int, hi: int)
    requires forall i :: lo <= i < hi ==> i in m && m[i] >= 2
    ensures SumRange(m, lo, hi) >= 2 * (if hi > lo then hi - lo else 0)
    decreases hi - lo
  {
    if lo < hi {
      SumRangeAtLeast(m, lo + 1, hi);
    }
  }

  /** `"-".PadRight(width, '-')`: a rule of `width` dashes, but at least
      one; a negative width throws. */
  function Dashes(width: int): (d: string)
    requires width >= 0
    ensures |d| == if width < 1 then 1 else width
    ensures forall i :: 0 <= i < |d| ==> d[i] == '-'
  {
    PadRight("-", width, '-')
  }

  /** The rule that closes the header and the table: white, as wide as the
      padding's values add up to. A null `Padding` or a negative width
      throws, after the writes already made. */
  function Rule(done: seq<Segment>, r: ExecutionResults, lead: string): (w: Printed)
    ensures w.escaped.Some? <==> r.padding.None? || SumValues(r.padding.value) < 0
    ensures w.escaped.Some? ==> w.output == done
    ensures r.padding.None? ==> w.escaped == Some(NullReferenceException)
    ensures r.padding.Some? && SumValues(r.padding.value) < 0 ==>
      w.escaped == Some(ArgumentOutOfRangeException)
    ensures w.escaped.None? ==>
      w.output == done + [Segment(lead + Dashes(SumValues(r.padding.value)) + "\n", White)]
  {
    if r.padding.None? then Printed(done, Some(NullReferenceException))
    else
      var width := SumValues(r.padding.value);
      if width < 0 then Printed(done, Some(ArgumentOutOfRangeException))
      else Printed(done + [Segment(lead + Dashes(width) + "\n", White)], None)
  }

  // ---------------------------------------------------------------------
  // Printing

  /** `PrintHeader`: the column names of row 0 in magenta, the first after
      a line break, then the rule. */
  function PrintHeader(r: ExecutionResults): (w: Printed)
    requires r.rows.Some? && |r.rows.value| > 0
    ensures |r.rows.value[0]| < r.colCount ==> w.escaped == Some(ArgumentOutOfRangeException)
    ensures |r.rows.value[0]| >= r.colCount ==> w == Rule(HeaderCells(r).output, r, "\n")
  {
    var cells := HeaderCells(r);
    if cells.escaped.Some? then cells else Rule(cells.output, r, "\n")
  }

  /** The loop of `PrintHeader`: every column name in magenta, the first
      after a line break, each further one after a white `|`. */
  function HeaderCells(r: ExecutionResults): (w: Printed)
    requires r.rows.Some? && |r.rows.value| > 0
    ensures var names := r.rows.value[0];
      && (w.escaped.Some? <==> |names| < r.colCount)
      && |w.output| == (if w.escaped.Some? then 2 * |names| else if r.colCount == 0 then 0 else 2 * r.colCount - 1)
      && (|w.output| > 0 ==> w.output[0] == Segment("\n" + names[0], Magenta))
      && forall j :: 0 < j < |w.output| ==>
           w.output[j] == if j % 2 == 1 then Separator else Segment(names[j / 2], Magenta)
  {
    WriteCells(r.rows.value[0], r.colCount, "\n", _ => Magenta)
  }

  /** One pass of the outer loop of `PrintRows`: the row's cells in the
      colours of their data types, then the line break of `WriteLine()`,
      in the colour of the row's last value (white when there are no
      columns). */
  function RowLine(row: Row, n: nat, p: Parsers): (w: Printed)
    ensures w.escaped.Some? <==> |row| < n
    ensures w.escaped.Some? ==> w.escaped.value == ArgumentOutOfRangeException
    ensures w.escaped.None? ==> |w.output| == if n == 0 then 1 else 2 * n
    ensures w.escaped.None? ==> forall j :: 0 <= j < |w.output| - 1 ==>
      w.output[j] == if j % 2 == 1 then Separator else Segment(row[j / 2], DataTypeColor(row[j / 2], p))
    ensures w.escaped.None? ==>
      w.output[|w.output| - 1] == Segment("\n", if n > 0 then DataTypeColor(row[n - 1], p) else White)
  {
    var cells := WriteCells(row, n, "", v => DataTypeColor(v, p));
    if cells.escaped.Some? then cells
    else Printed(cells.output + [Segment("\n", if n > 0 then DataTypeColor(row[n - 1], p) else White)], None)
  }

  /** A data row shows its first `n` values joined by `|`, then a line
      break. */
  lemma RowLineText(row: Row, n: nat, p: Parsers)
    requires |row| >= n
    ensures Text(RowLine(row, n, p).output) == Join(row[..n], "|") + "\n"
  {
    var cells := WriteCells(row, n, "", v => DataTypeColor(v, p));
    var end := Segment("\n", if n > 0 then DataTypeColor(row[n - 1], p) else White);
    CellsText(row, n, "", v => DataTypeColor(v, p));
    TextAppend(cells.output, [end]);
    assert Text([end]) == "\n";
    assert Join(row[..0], "|") == "";
  }

  /** The loop of `PrintRows` over the data rows. */
  function WriteRows(rows: seq<Row>, n: nat, p: Parsers): (w: Printed)
    ensures w.escaped.Some? <==> !Covers(rows, n)
    ensures w.escaped.Some? ==> w.escaped.value == ArgumentOutOfRangeException
    decreases |rows|
  {
    if |rows| == 0 then Printed([], None)
    else
      var line := RowLine(rows[0], n, p);
      if line.escaped.Some? then line
      else
        var rest := WriteRows(rows[1..], n, p);
        assert forall k :: 1 <= k < |rows| ==> rows[k] == rows[1..][k - 1];
        Printed(line.output + rest.output, rest.escaped)
  }

  /** Joins a sequence of write sequences, in order. */
  function Flatten(parts: seq<seq<Segment>>): seq<Segment>
    decreases |parts|
  {
    if |parts| == 0 then [] else parts[0] + Flatten(parts[1..])
  }

  /** The writes of each data row, one entry per row. */
  function RowLines(rows: seq<Row>, n: nat, p: Parsers): (lines: seq<seq<Segment>>)
    ensures |lines| == |rows|
    ensures forall k :: 0 <= k < |rows| ==> lines[k] == RowLine(rows[k], n, p).output
  {
    seq(|rows|, k requires 0 <= k < |rows| => RowLine(rows[k], n, p).output)
  }

  /** When every row has a value for each column, the data rows are
      written one `RowLine` after another, so each value carries the
      colour of its data type. */
  lemma {:induction false} WriteRowsLines(rows: seq<Row>, n: nat, p: Parsers)
    requires Covers(rows, n)
    ensures WriteRows(rows, n, p) == Printed(Flatten(RowLines(rows, n, p)), None)
    decreases |rows|
  {
    if |rows| > 0 {
      assert Covers(rows[1..], n) by {
        assert forall k :: 1 <= k < |rows| ==> rows[k] == rows[1..][k - 1];
      }
      WriteRowsLines(rows[1..], n, p);
      assert RowLines(rows, n, p)[1..] == RowLines(rows[1..], n, p);
    }
  }

  /** `PrintRows`: the data rows (all rows after the header), then the
      rule. */
  function PrintRows(r: ExecutionResults, p: Parsers): (w: Printed)
    requires r.rows.Some? && |r.rows.value| > 0
    ensures w.escaped.Some? <==>
      !Covers(r.rows.value[1..], r.colCount) || r.padding.None? || SumValues(r.padding.value) < 0
  {
    var body := WriteRows(r.rows.value[1..], r.colCount, p);
    if body.escaped.Some? then body else Rule(body.output, r, "")
  }

  /** `Terminal.Print`. A message that is not blank is written in red,
      followed by an empty line, and nothing else is looked at. Otherwise
      `Rows.Any()` throws for a null `Rows`, an empty `Rows` prints
      nothing, and the header then the data rows follow. */
  function Print(r: ExecutionResults, p: Parsers): (w: Printed)
    ensures !IsNullOrWhiteSpace(r.errorMsg) ==>
      w == Printed([Segment(r.errorMsg.value + "\n\n", Red)], None)
    ensures IsNullOrWhiteSpace(r.errorMsg) && r.rows.None? ==>
      w == Printed([], Some(ArgumentNullException))
    ensures IsNullOrWhiteSpace(r.errorMsg) && r.rows == Some([]) ==> w == Printed([], None)
  {
    if !IsNullOrWhiteSpace(r.errorMsg) then Printed([Segment(r.errorMsg.value + "\n\n", Red)], None)
    else if r.rows.None? then Printed([], Some(ArgumentNullException))
    else if |r.rows.value| == 0 then Printed([], None)
    else
      var header := PrintHeader(r);
      if header.escaped.Some? then header
      else
        var body := PrintRows(r, p);
        Printed(header.output + body.output, body.escaped)
  }

  /** A result without an error prints without an exception exactly when
      `Rows` is set and, if it holds any row, every row has a value for
      each column and the padding is set with a non-negative total. */
  lemma PrintEscapes(r: ExecutionResults, p: Parsers)
    requires IsNullOrWhiteSpace(r.errorMsg)
    ensures Print(r, p).escaped.None? <==>
      && r.rows.Some?
      && (|r.rows.value| > 0 ==>
            && Covers(r.rows.value, r.colCount)
            && r.padding.Some? && SumValues(r.padding.value) >= 0)
  {
    if r.rows.Some? && |r.rows.value| > 0 {
      var rows := r.rows.value;
      assert Covers(rows, r.colCount) <==> |rows[0]| >= r.colCount && Covers(rows[1..], r.colCount) by {
        assert forall k :: 1 <= k < |rows| ==> rows[k] == rows[1..][k - 1];
      }
    }
  }

  /** What the data rows show: each row's first `n` values joined by `|`,
      one row per line. */
  function BodyText(rows: seq<Row>, n: nat): string
    requires Covers(rows, n)
    decreases |rows|
  {
    if |rows| == 0 then ""
    else
      assert Covers(rows[1..], n) by {
        assert forall k :: 1 <= k < |rows| ==> rows[k] == rows[1..][k - 1];
      }
      Join(rows[0][..n], "|") + "\n" + BodyText(rows[1..], n)
  }

  lemma {:induction false} WriteRowsText(rows: seq<Row>, n: nat, p: Parsers)
    requires Covers(rows, n)
    ensures Text(WriteRows(rows, n, p).output) == BodyText(rows, n)
    decreases |rows|
  {
    if |rows| > 0 {
      assert Covers(rows[1..], n) by {
        assert forall k :: 1 <= k < |rows| ==> rows[k] == rows[1..][k - 1];
      }
      RowLineText(rows[0], n, p);
      WriteRowsText(rows[1..], n, p);
      TextAppend(RowLine(rows[0], n, p).output, WriteRows(rows[1..], n, p).output);
    }
  }

  /** The table as it appears on the console: a line break, the column
      names joined by `|`, a rule, one line per data row, and the rule
      again. */
  lemma PrintLayout(r: ExecutionResults, p: Parsers)
    requires IsNullOrWhiteSpace(r.errorMsg)
    requires r.rows.Some? && |r.rows.value| > 0 && Covers(r.rows.value, r.colCount)
    requires r.padding.Some? && SumValues(r.padding.value) >= 0
    ensures Print(r, p).escaped.None?
    ensures var rows := r.rows.value;
      var n := r.colCount;
      var rule := Dashes(SumValues(r.padding.value));
      assert Covers(rows[1..], n);
      Text(Print(r, p).output)
        == (if n == 0 then "" else "\n" + Join(rows[0][..n], "|"))
           + ("\n" + rule + "\n") + BodyText(rows[1..], n) + (rule + "\n")
  {
    var rows := r.rows.value;
    var n := r.colCount;
    var rule := Dashes(SumValues(r.padding.value));
    assert Covers(rows[1..], n);
    var cells := HeaderCells(r).output;
    var headerLine := [Segment("\n" + rule + "\n", White)];
    var body := WriteRows(rows[1..], n, p).output;
    var closing := [Segment(rule + "\n", White)];
    PrintWrites(r, p);
    PrintedText(cells, headerLine, body, closing);
    CellsText(rows[0], n, "\n", _ => Magenta);
    WriteRowsText(rows[1..], n, p);
    assert Text(headerLine) == "\n" + rule + "\n";
    assert Text(closing) == rule + "\n";
  }

  /** The writes of a printable table: the header cells and its rule, then
      the data rows and the closing rule. */
  lemma PrintWrites(r: ExecutionResults, p: Parsers)
    requires IsNullOrWhiteSpace(r.errorMsg)
    requires r.rows.Some? && |r.rows.value| > 0 && Covers(r.rows.value, r.colCount)
    requires r.padding.Some? && SumValues(r.padding.value) >= 0
    ensures var rule := Dashes(SumValues(r.padding.value));
      assert Covers(r.rows.value[1..], r.colCount);
      Print(r, p) == Printed(
        (HeaderCells(r).output + [Segment("\n" + rule + "\n", White)])
        + (WriteRows(r.rows.value[1..], r.colCount, p).output + [Segment(rule + "\n", White)]),
        None)
  {
    var rows := r.rows.value;
    var rule := Dashes(SumValues(r.padding.value));
    assert Covers(rows[1..], r.colCount);
    assert "" + rule == rule;
  }

  lemma PrintedText(a: seq<Segment>, b: seq<Segment>, c: seq<Segment>, d: seq<Segment>)
    ensures Text((a + b) + (c + d)) == Text(a) + Text(b) + Text(c) + Text(d)
  {
    TextAppend(a + b, c + d);
    TextAppend(a, b);
    TextAppend(c, d);
  }

  // ---------------------------------------------------------------------
  // Printing what the engine produced

  /** A result that `FormatQueryResult` produced always prints without an
      exception. */
  lemma FormattedResultPrints(raw: ExecutionResults, p: Parsers)
    requires raw.rows.Some? && Covers(raw.rows.value, raw.colCount)
    requires FormatQueryResult(raw).Success?
    ensures Print(FormatQueryResult(raw).value, p).escaped.None?
  {
    var f := FormatQueryResult(raw).value;
    var pad := f.padding.value;
    SumValuesOverRange(pad, 0, f.colCount);
    SumRangeAtLeast(pad, 0, f.colCount);
    PrintEscapes(f, p);
  }

  /** The rule is as wide as the columns, without the separators: every
      formatted row of `n` columns is `n - 1` characters wider than it. */
  lemma RuleShorterThanRows(raw: ExecutionResults, k: nat)
    requires raw.rows.Some? && Covers(raw.rows.value, raw.colCount)
    requires FormatQueryResult(raw).Success?
    requires k < |raw.rows.value| && raw.colCount > 0
    ensures var f := FormatQueryResult(raw).value;
      var n := f.colCount;
      var w := SumValues(f.padding.value);
      && w >= 2 * n
      && |Dashes(w)| == w
      && w + (n - 1) == |Join(f.rows.value[k][..n], "|")|
  {
    var f := FormatQueryResult(raw).value;
    FormattedRow(raw, k);
    RuleVersusRow(f.padding.value, f.colCount, f.rows.value[k]);
  }

  /** The facts about one formatted row that the rule's width depends on. */
  lemma FormattedRow(raw: ExecutionResults, k: nat)
    requires raw.rows.Some? && Covers(raw.rows.value, raw.colCount)
    requires FormatQueryResult(raw).Success?
    requires k < |raw.rows.value| && raw.colCount > 0
    ensures var f := FormatQueryResult(raw).value;
      var n := f.colCount;
      var pad := f.padding.value;
      var row := f.rows.value[k];
      && n == raw.colCount && IndexedBy(pad, n) && |row| >= n
      && (forall i :: 0 <= i < n ==> |row[i]| == pad[i] && pad[i] >= 2)
  {
    var f := FormatQueryResult(raw).value;
    var n := f.colCount;
    var pad := f.padding.value;
    var row := f.rows.value[k];
    forall i | 0 <= i < n
      ensures |row[i]| == pad[i] && pad[i] >= 2
    {
      assert IsPaddedCell(raw.rows.value[k][i], row[i], pad[i]);
      assert IsColumnWidth(raw.rows.value, i, pad[i]);
    }
  }

  /** A row whose cell `i` is exactly `pad[i]` wide, joined by `|`, is
      `n - 1` characters wider than the sum of the widths. */
  lemma RuleVersusRow(pad: map<int, int>, n: nat, row: Row)
    requires n > 0 && IndexedBy(pad, n) && |row| >= n
    requires forall i :: 0 <= i < n ==> |row[i]| == pad[i] && pad[i] >= 2
    ensures var w := SumValues(pad);
      && w >= 2 * n
      && |Dashes(w)| == w
      && w + (n - 1) == |Join(row[..n], "|")|
  {
    SumValuesOverRange(pad, 0, n);
    SumRangeAtLeast(pad, 0, n);
    JoinLength(row[..n], pad, 0);
  }

  /** Joining `parts` with a one-character separator, where part `i` has
      `pad[lo + i]` characters. */
  lemma {:induction false} JoinLength(parts: seq<string>, pad: map<int, int>, lo: int)
    requires |parts| > 0
    requires forall i :: lo <= i < lo + |parts| ==> i in pad
    requires forall i :: 0 <= i < |parts| ==> |parts[i]| == pad[lo + i]
    ensures |Join(parts, "|")| == SumRange(pad, lo, lo + |parts|) + |parts| - 1
    decreases |parts|
  {
    if |parts| > 1 {
      JoinLength(parts[1..], pad, lo + 1);
    }
  }

  /** A statement the non-query path ran successfully leaves `Rows` null,
      so printing its result throws from `Rows.Any()`. */
  lemma NonQuerySuccessCrashesPrint(sql: string, readOnly: bool, driver: Driver, p: Parsers)
    requires ExecuteCommand(sql, readOnly, driver).Success?
    requires ExecuteCommand(sql, readOnly, driver).value.path == NonQueryPath
    requires ExecuteCommand(sql, readOnly, driver).value.results.errorMsg.None?
    ensures Print(ExecuteCommand(sql, readOnly, driver).value.results, p).escaped
      == Some(ArgumentNullException)
  {
  }
}
